=== FILE: README.md ===
# Ollama vision chatbots: table parsing, request gating and the frame/inference hand-off

This project models, in Dafny, the logic that sits between the user
interfaces and the Ollama inference service in four small Python scripts:

- **`safety_regulations_askollama.py`** is a workplace-safety chatbot.
  `parse_markdown_table` takes the model's Markdown reply apart. It finds
  the first run of lines containing `|`, keeps that run as the original
  table text, skips separator lines (`|---|---|`), and splits every other
  line into whitespace-stripped cells. Around the parser, `ask_ollama`
  checks its form in a fixed order: photo, then name/staff id/sector, then
  the "run analysis" flag. It wraps every failure in a red `format_error`
  banner and splits the parsed rows into a header row and data rows.
  `save_report` checks the required feedback fields and fills missing ones
  with `"NA"`.
- **`askollama.py`** is a one-shot chatbot. Its `ask_ollama` refuses a
  missing image or an empty prompt without making a request. Otherwise it
  turns each request outcome into exactly one reply text.
- **`cam_askollama.py`** and **`video_askollama.py`** overlay the latest
  inference result on a camera feed or a video file. A capture loop offers
  frames to a one-frame queue, and the frame is dropped when the queue is
  not empty. A worker thread takes the frame, calls the service, writes
  the outcome's text to `last_result` and sleeps. In the video variant:
  - only every second frame is processed;
  - the worker also pushes its result into a one-result queue;
  - the playback loop polls that queue and keeps its previous result when
    the queue is empty.

Modules, one per concern:

| file | module | models |
|---|---|---|
| base.dfy | `Base` | `Option`, an image, Python truthiness of an optional string |
| text.dfy | `Text` | `strip`, `split`, `join` |
| bounded_queue.dfy | `BoundedQueue` | `queue.Queue(maxsize)` with blocking `put`/`get`, and the "put only if empty" offer |
| outcomes.dfy | `Outcomes` | request outcomes, first-matching `except` clause, the workers' outcome-to-text mapping and their initial `last_result` |
| markdown_table.dfy | `MarkdownTable` | `parse_markdown_table` |
| safety_app.dfy | `SafetyApp` | `format_error`, `ask_ollama`, the table part of `save_analysis`, `save_report` |
| chat.dfy | `Chat` | `askollama.py`'s `ask_ollama` |
| cam_pipeline.dfy | `CamPipeline` | camera capture loop and worker as a state machine |
| video_pipeline.dfy | `VideoPipeline` | video playback loop and worker as a state machine |

How the model stands in for what it cannot see:

- **Requests.** The HTTP call, `raise_for_status()` and JSON decoding are
  replaced by a `CallOutcome`. It is either `Responded(response)`, where
  `response` is the reply's `"response"` field or `None` when that field
  is absent, or `Raised(e)`.
- **Exceptions.** An exception is described by the set of named `except`
  clauses whose class it belongs to, plus its `str(e)`. The clause that
  runs is the first catching one in the order the script lists them
  (`Outcomes.FirstMatch`). No class hierarchy of the HTTP library is
  assumed, so a timeout that is also a connection error is covered too.
- **Threads.** Each thread step is one atomic event (`Step`). A blocking
  `get` or `put` that would wait is an event that is not enabled, so
  `Step` returns `None`. A trace is a sequence of events (`Run`).
- **History.** The states carry the frames accepted and taken and the
  results written and shown, in order. These histories let the invariants
  say that nothing is lost.

In both overlay scripts a frame offered while the frame queue is full is
dropped and the queued frame stays (`if frame_queue.empty(): frame_queue.put(...)`,
cam_askollama.py:91-92 and video_askollama.py:137-138).

The two overlay scripts are separate programs with different loops, so
each has its own state machine, `Run`, invariant and trace lemmas. The
shared parts are in `Outcomes` and `BoundedQueue`: the outcome-to-text
mapping, the initial `last_result`, and the queue.

## Model

| member | source | states |
|---|---|---|
| Text.Strip | safety_regulations_askollama.py:43 | a stripped cell has no whitespace at either end and is no longer than the input |
| Text.StripCutsSpace | safety_regulations_askollama.py:43 | the input is leading whitespace, then the stripped text, then trailing whitespace |
| Text.StripUnique | safety_regulations_askollama.py:41 | any split of a string into whitespace, a part with no whitespace at its ends, and whitespace gives exactly the stripped text |
| Text.StripIdempotent | safety_regulations_askollama.py:350 | stripping an already stripped text changes nothing |
| Text.Split | safety_regulations_askollama.py:43 | `line.split('\|')` gives at least one piece and no piece contains the separator |
| Text.SplitCount | safety_regulations_askollama.py:43 | there is one more piece than there are separators in the line |
| Text.JoinSplit | safety_regulations_askollama.py:43 | joining the pieces with the separator gives back the line |
| Text.SplitJoin | safety_regulations_askollama.py:50 | splitting a newline-join of newline-free lines gives back those lines |
| BoundedQueue.Put | video_askollama.py:21 | a put waits exactly when the queue is full; otherwise it appends the item at the back and keeps the size bound |
| BoundedQueue.Get | video_askollama.py:29 | a get waits exactly when the queue is empty; otherwise it returns the front item, leaves the rest in order and keeps the size bound |
| BoundedQueue.Fifo | video_askollama.py:142 | items leave in arrival order: a put and then a get return the same item as a get and then a put |
| BoundedQueue.PutThenGet | video_askollama.py:29 | a put on an empty queue never waits, and the next get returns that item and leaves the queue empty |
| BoundedQueue.OfferIfEmpty | video_askollama.py:137-138 | an empty queue takes the offered item; a non-empty one stays exactly as it was, so the new item is dropped |
| Outcomes.FirstMatch | video_askollama.py:58-69 | the chosen clause catches the exception, no earlier clause does, and when none is chosen no listed clause catches it |
| Outcomes.WorkerMessage | cam_askollama.py:49-66 | a response gives its text, or "No response received" when absent; a timeout gives "Error: Timeout", even if it is also a connection error; a connection failure gives "Error: Connection failed"; anything else gives "Error: " + message |
| Outcomes.FailureShownAsError | video_askollama.py:58-69 | every failure is displayed as text starting with "Error: " |
| MarkdownTable.Cells | safety_regulations_askollama.py:43 | one cell per pipe-separated piece (pipe count + 1), each stripped and pipe-free |
| MarkdownTable.CellsArePieces | safety_regulations_askollama.py:43 | cell k is the k-th piece of `line.split('\|')` with whitespace cut from both ends; with `Text.StripUnique` and `Text.JoinSplit` this fixes every cell |
| MarkdownTable.IsSeparator | safety_regulations_askollama.py:41 | definition: every character of the stripped line is one of `\|`, `-`, space and `:`; stated by `MarkdownTable.BlankAroundPipeIsSeparator` and `MarkdownTable.RowSources` |
| MarkdownTable.ParseRow | safety_regulations_askollama.py:43-45 | definition; stated by `MarkdownTable.ParseRowTrims` and `MarkdownTable.RowNeverEmpty` |
| MarkdownTable.ParseRowTrims | safety_regulations_askollama.py:43-45 | the row is the stripped cells from index 0, or 1 exactly when the first cell is empty, to the end, or one before it exactly when the last remaining cell is empty. So at most one cell goes from each end, every other cell stays in place, and every cell is stripped |
| MarkdownTable.RowNeverEmpty | safety_regulations_askollama.py:41-46 | a pipe line that is not a separator always gives a row with at least one cell |
| MarkdownTable.BlankAroundPipeIsSeparator | safety_regulations_askollama.py:41 | a line that is only whitespace around one pipe counts as a separator |
| MarkdownTable.TableStart | safety_regulations_askollama.py:37-39 | the table starts at the first line containing a pipe; no earlier line contains one |
| MarkdownTable.RunEnd | safety_regulations_askollama.py:47-49 | the run of pipe lines continues until the first later line without a pipe, or the end of the input |
| MarkdownTable.TableEnd | safety_regulations_askollama.py:47-49 | the table ends at the first line without a pipe after its start, and every line in between has a pipe |
| MarkdownTable.ParseMarkdownTable | safety_regulations_askollama.py:27-51 | the line-by-line loop with its `in_table` flag and `break` returns exactly the rows of the first run of pipe lines and that run joined by newlines |
| MarkdownTable.RowSources | safety_regulations_askollama.py:40-46 | the row-giving lines are exactly the non-separator table lines, listed once each in increasing order |
| MarkdownTable.RowsFromDistinctLines | safety_regulations_askollama.py:40-46 | the k-th row is the parsed k-th non-separator table line; there are no more rows than table lines, and separator lines give none |
| MarkdownTable.NoPipeNoTable | safety_regulations_askollama.py:33-51 | input without a pipe line yields no rows and empty table text |
| MarkdownTable.LeadingLinesIgnored | safety_regulations_askollama.py:37-47 | adding lines without a pipe before the input changes neither the table lines nor the result |
| MarkdownTable.LinesAfterTableIgnored | safety_regulations_askollama.py:47-49 | once a line without a pipe ends the table, replacing everything after that line changes nothing |
| MarkdownTable.OriginalTableRoundTrip | safety_regulations_askollama.py:40-50 | splitting the original table text at newlines gives back the table's lines, separators included |
| SafetyApp.FormatError | safety_regulations_askollama.py:65-66 | the banner is longer than its message by exactly the two fixed tags, so the message is never cut |
| SafetyApp.ErrorMessageOfFormatError | safety_regulations_askollama.py:65-66 | reading a banner back gives its message |
| SafetyApp.FormatErrorOfErrorMessage | safety_regulations_askollama.py:65-66 | every text that reads as a banner is the banner of its message |
| SafetyApp.FailureBanner | safety_regulations_askollama.py:179-186 | a timeout gives the timed-out banner, even if it is also a request failure; another request failure gives "API request failed: " + message; anything else gives "Error: " + message |
| SafetyApp.Headers | safety_regulations_askollama.py:161 | definition; stated by `SafetyApp.HeaderDataSplit` |
| SafetyApp.DataRows | safety_regulations_askollama.py:216 | definition; stated by `SafetyApp.HeaderDataSplit` and `SafetyApp.ExportAfterAnalysis` |
| SafetyApp.HeaderDataSplit | safety_regulations_askollama.py:161 | the header row plus the data rows is the whole row list; with no rows both are empty; there is one data row fewer than rows |
| SafetyApp.AskOllama | safety_regulations_askollama.py:68-186 | analysis data is returned exactly when a photo is given, all details are filled in, the analysis is requested, the image was encoded and the request answered. The data then holds the reply, its parsed rows, their first row as headers, the form's values and "llava:13b" |
| SafetyApp.ValidationOrder | safety_regulations_askollama.py:76-89 | a missing photo gives the photo banner whatever else is wrong; then missing details give the details banner; then `run_analysis=False` gives the loading message |
| SafetyApp.NoRequestBeforeValidation | safety_regulations_askollama.py:75-89 | until validation passes and the analysis is asked for, the image encoding and the request outcome make no difference |
| SafetyApp.FailuresAreBanners | safety_regulations_askollama.py:91-186 | once the analysis runs, every failure is a banner with no analysis data and no status. An exception while preparing the image, or one raised by the request, gives `SafetyApp.FailureBanner` of that exception: a timeout gives the timed-out text, another request failure "API request failed: " + message, anything else (such as an image that cannot be converted) "Error: " + message. A `None` from `prepare_image` would give "Error processing image.", but as written `prepare_image` never returns `None` |
| SafetyApp.ExportTable | safety_regulations_askollama.py:192-193 | exporting without analysis data gives "No analysis data to save.", and only then |
| SafetyApp.ExportAfterAnalysis | safety_regulations_askollama.py:205-216 | the export of a successful analysis records the first parsed row as table headers and exactly the remaining rows as data |
| SafetyApp.SaveReport | safety_regulations_askollama.py:330-360 | a record is saved exactly when the description is non-empty, the rating is non-zero and the write succeeds. A missing field gives the required-fields banner; a failed write gives the failed-save banner. A saved record holds the stripped description, the rating, the e-mail or "NA", and "v1.0.0" |
| SafetyApp.FieldOrNA | safety_regulations_askollama.py:337-340 | definition; stated by `SafetyApp.ReportWithoutAnalysis` and `SafetyApp.ReportAfterAnalysis` |
| SafetyApp.ReportWithoutAnalysis | safety_regulations_askollama.py:337-340 | without analysis data, name, staff id, sector and model are all "NA" |
| SafetyApp.ReportAfterAnalysis | safety_regulations_askollama.py:337-340 | after a successful analysis, the report carries the form's name, staff id and sector and the model used |
| SafetyApp.ReportDescriptionTrimmed | safety_regulations_askollama.py:350 | the stored description has no whitespace at either end |
| Chat.AskOllama | askollama.py:10-11 | a missing image or an empty or missing prompt gives "Please upload an image and enter a prompt." |
| Chat.NoRequestWithoutInput | askollama.py:9-11 | with an incomplete form the request outcome makes no difference to the reply |
| Chat.ReplyForOutcome | askollama.py:36-44 | each outcome gets its reply. A response gives its text or "No response received"; a timeout gives the timed-out text, even if it is also a connection error; a connection failure gives the could-not-connect text; anything else gives "Unexpected error: " + message |
| Chat.FailureRepliesDiffer | askollama.py:39-44 | a failed request is never answered with the incomplete-form text |
| CamPipeline.Step | cam_askollama.py:30-92 | a capture never waits. A take happens exactly when the worker waits and a frame is queued. A finish happens exactly when a request is in flight. Only a finish writes `last_result`, exactly once, and it writes the outcome's text (`Outcomes.WorkerMessage`) |
| CamPipeline.RenderAsWritten | cam_askollama.py:106-110 | the overlay step as written crashes exactly when `last_result` is empty or all ASCII whitespace, and otherwise draws `last_result` |
| CamPipeline.Render | cam_askollama.py:95-110 | the corrected overlay step never crashes and agrees with the written one whenever that one does not crash |
| CamPipeline.InitInv | cam_askollama.py:23-25 | the start state meets the invariant: empty one-frame queue, `last_result` is "Processing..." |
| CamPipeline.StepPreservesInv | cam_askollama.py:25-92 | every event keeps the invariant: at most one queued frame; every accepted frame taken or still queued, in order; `last_result` is the latest write |
| CamPipeline.RunPreservesInv | cam_askollama.py:25-92 | the invariant holds after every possible trace of events |
| CamPipeline.Reachable | cam_askollama.py:25 | in every reachable state the frame queue holds at most one frame |
| CamPipeline.CaptureDropsNewWhenFull | cam_askollama.py:91-92 | a capture while a frame is queued keeps the queued frame and drops the new one |
| CamPipeline.CaptureFillsEmptySlot | cam_askollama.py:79-92 | every captured frame is a candidate: `frame_skip` is unused, so an empty queue always takes the frame |
| CamPipeline.TakeEmptiesSlot | cam_askollama.py:32 | the worker's take returns the one queued frame and leaves the queue empty |
| CamPipeline.OneWritePerRequest | cam_askollama.py:55-66 | over any trace, `last_result` is written once per finished request and at no other time |
| CamPipeline.DisplayShowsLatest | cam_askollama.py:95-96 | the corrected display (`CamPipeline.Render`) shows "Processing..." until the first write, and after that the latest written text |
| CamPipeline.SecondFrameDropped | cam_askollama.py:91-92 | capturing two frames and then taking gives the worker the first frame; the second was never accepted |
| CamPipeline.EmptyReplyCrashesCapture | cam_askollama.py:106-110 | a capture, a take and a reply with an empty "response" bring the as-written overlay step to its crash |
| VideoPipeline.Step | video_askollama.py:95-145 | a read never waits and counts one frame. A take needs a waiting worker and a queued frame. A publish needs a result to push and room in the result queue, and it appends `last_result` to that queue. Only a finish writes `last_result`, exactly once, and it writes the outcome's text (`Outcomes.WorkerMessage`) |
| VideoPipeline.InitInv | video_askollama.py:19-22 | the start state meets the invariant: both queues empty, `last_result` is "Processing...", no current result |
| VideoPipeline.ReadPreservesInv | video_askollama.py:95-145 | a playback-loop iteration keeps the invariant |
| VideoPipeline.ReadKeepsFrames | video_askollama.py:100-138 | a read keeps the frame accounting: accepted frames are even-numbered, increasing and not beyond the frame count |
| VideoPipeline.ReadKeepsResults | video_askollama.py:140-145 | a read keeps the result accounting: a polled result moves from the queue to the shown results |
| VideoPipeline.ReadKeepsWorker | video_askollama.py:95-145 | a read leaves the queue bounds and the worker's accounting intact |
| VideoPipeline.StepPreservesInv | video_askollama.py:21-145 | every event keeps the invariant. Every written result is shown, queued or about to be pushed, in order, and none is lost |
| VideoPipeline.RunPreservesInv | video_askollama.py:21-145 | the invariant holds after every possible trace of events |
| VideoPipeline.Reachable | video_askollama.py:21-22 | in every reachable state both queues hold at most one item, and only even-numbered frames ever entered the frame queue |
| VideoPipeline.OddFrameSkipped | video_askollama.py:100-104 | an odd-numbered frame only advances the counter: nothing is offered or polled |
| VideoPipeline.EvenFrameOffered | video_askollama.py:136-138 | an even-numbered frame goes into an empty frame queue |
| VideoPipeline.FrameDroppedWhenFull | video_askollama.py:137-138 | an even-numbered frame read while another is queued is dropped, and the queued one stays |
| VideoPipeline.TakeEmptiesSlot | video_askollama.py:29 | the worker's take returns the one queued frame and leaves the queue empty |
| VideoPipeline.RendererKeepsPrevious | video_askollama.py:140-145 | with no queued result, the playback loop keeps its previous result |
| VideoPipeline.RendererTakesNewResult | video_askollama.py:141-143 | on a processed frame a queued result becomes the current result and leaves the queue |
| VideoPipeline.ResultPublishedTwice | video_askollama.py:52-69 | one worker iteration writes the outcome's text to `last_result` and pushes that same text to the result queue, whatever the outcome |
| VideoPipeline.PublishWaitsForReader | video_askollama.py:22 | the worker cannot push while an unread result fills the result queue |
| VideoPipeline.OneWritePerRequest | video_askollama.py:52-69 | over any trace, `last_result` is written once per finished request and at no other time |
| VideoPipeline.OverlayFollowsWrites | video_askollama.py:93-148 | nothing is drawn until a first result arrives. Anything drawn was written by the worker, and the results received are the worker's results in order with none skipped |

## Findings

| source | as written | input that shows it | evidently intended | confidence | as-written member | corrected member |
|---|---|---|---|---|---|---|
| cam_askollama.py:106-110 | the overlay box width is `max(...)` over `textwrap.wrap(last_result)`, which raises `ValueError` on an empty line list; nothing catches it, so the capture loop ends | the service replies `{"response": ""}` (or only whitespace); the next capture iteration crashes | draw the frame without crashing when there is nothing to write (the video variant, which has no `max`, draws an empty box) | medium; not executed | CamPipeline.EmptyReplyCrashesCapture | CamPipeline.Render |

## Left out

- `rag.py` is not part of this model. It loads PDFs, splits text, builds embeddings and a vector index, all through library calls.
- HTTP, JSON and the Ollama payloads (model names, prompts, timeouts) are not modelled; only the outcome taxonomy is.
- Which exception class the HTTP library raises in which situation is library behaviour. An exception is given by the clauses that catch it.
- A `"response"` value that is not a string (JSON `null`, a number) is not modelled. Its effect differs by script:
  - `askollama.py` returns it unchanged (askollama.py:36-37);
  - the video script pushes it as-is: a `null` makes `current_result` `None` and the overlay disappears without an error (video_askollama.py:53, 142-148), while a number crashes the playback loop in `textwrap.wrap` (video_askollama.py:154);
  - the safety app's parser raises `AttributeError`, which is caught and shown as an "Error: " banner (safety_regulations_askollama.py:153, 183-186);
  - the camera script crashes in its overlay (cam_askollama.py:106).
- Image work is not modelled: PIL conversion, JPEG/PNG encoding, base64, OpenCV capture, resizing and colour conversion. The safety app's `prepare_image` is represented only by its result (`SafetyApp.Prepared`).
- In `askollama.py` the image is encoded before the `try`. An exception raised there is not modelled.
- Both overlay workers also convert and encode the frame before their `try` (cam_askollama.py:35-40, video_askollama.py:32-37). An exception there ends the worker thread for good and `last_result` stays as it was. The model's `Finish` event assumes the encoding succeeded.
- The video variant's letterboxing arithmetic and both overlays' font scale, wrap width, line height and drawing are floating-point or OpenCV work and are not modelled. Of the wrapping, only "no lines exactly when the text is blank" is used, in `CamPipeline.RenderAsWritten`.
- Threads, the lock and scheduling are not modelled. Every thread step is one atomic event. The unlocked re-read of `last_result` before `result_queue.put` reads the same value in this sequential model.
- `time.sleep(1)` is a `Sleeping` phase ended by a `Wake` event. The wall-clock limit of about one request per second is not modelled.
- The loops' exits are not events: a failed camera open, a failed read, the end of the video and the `q` key. A trace simply ends.
- `save_analysis` is modelled only in its no-data guard and in the headers and rows it records. Image saving, JSON and Word writing, timestamps and the docx column widths are left out.
- `save_report` is not modelled in its timestamp or its JSON write. The write's failure is a parameter.
- `save_report` sees `analysis_data` as a map of its string-valued entries (`SafetyApp.Fields`). The rows, the image and the generation time are not consulted there.
- `SafetyApp.SaveReport`: the rating is taken as an integer. Python's `int(rating)` on a fractional slider value is not modelled.
- `generation_time` and the `datetime` calls are clock readings and are not modelled.
- Gradio wiring is not modelled: the interfaces, `show_export_button`, the button chains and the launch.
- `SafetyApp.ReplyLines` splits the reply at `'\n'` only. Python's `splitlines()` also breaks at `\r`, `\r\n`, `\v`, `\f`, `\x1c`–`\x1e`, `\x85`, `\u2028` and `\u2029`. A trailing empty line makes no difference to the parser.
- CamPipeline.RenderAsWritten: crashes only for empty or all-ASCII-whitespace text. `textwrap` also drops chunks that `str.strip()` empties, so a reply such as a lone no-break space (`\u00a0`) or `\x1c` also crashes the capture loop. The model draws such text.
- `Text.Strip`: strips only ASCII whitespace (space, tab, newline, carriage return, vertical tab, form feed). Python's `str.strip()` also strips Unicode whitespace.

=== FILE: base.dfy ===
/**
 * Small shared vocabulary: an optional value, an image, and Python's
 * truthiness test for a value that may be `None` or a string.
 */
module Base {

  /** `None` stands for Python's `None` (or a missing value). */
  datatype Option<+T> = None | Some(value: T) {

    /** The wrapped value, or `default` when there is none. */
    function GetOr(default: T): T {
      match this
      case Some(v) => v
      case None => default
    }
  }

  /** An uploaded or captured picture; its pixels are not modelled. */
  datatype Image = Image(id: nat)

  /** `bool(x)` for a value that is `None` or a `str`: only a non-empty string is truthy. */
  predicate Truthy(x: Option<string>) {
    x.Some? && x.value != ""
  }
}

=== FILE: bounded_queue.dfy ===
/**
 * Python's `queue.Queue(maxsize)` as a value: a FIFO whose `put` blocks
 * while the queue is full and whose `get` blocks while it is empty. A
 * blocking call that would wait is represented by `None`: the event is not
 * enabled in that state. `maxsize <= 0` means "unbounded" in Python; here
 * `maxsize` is a `nat` and `0` keeps that meaning.
 */
module BoundedQueue {
  import opened Base

  datatype Queue<T> = Queue(items: seq<T>, maxsize: nat)

  function New<T>(maxsize: nat): (q: Queue<T>)
    ensures Empty(q) && q.maxsize == maxsize
  {
    Queue([], maxsize)
  }

  /** `q.empty()`. */
  predicate Empty<T>(q: Queue<T>) {
    |q.items| == 0
  }

  /** `q.full()`: bounded and at its bound. */
  predicate Full<T>(q: Queue<T>) {
    0 < q.maxsize <= |q.items|
  }

  /** The queue respects its bound. */
  predicate WithinBound<T>(q: Queue<T>) {
    q.maxsize == 0 || |q.items| <= q.maxsize
  }

  /** `q.put(x)` (blocking): `None` while the queue is full. */
  function Put<T>(q: Queue<T>, x: T): (r: Option<Queue<T>>)
    ensures r.Some? <==> !Full(q)
    ensures r.Some? ==> r.value.maxsize == q.maxsize && r.value.items == q.items + [x]
    ensures r.Some? && WithinBound(q) ==> WithinBound(r.value)
  {
    if Full(q) then None else Some(Queue(q.items + [x], q.maxsize))
  }

  /** `q.get()` (blocking) and `q.get(block=False)`: the oldest item and the rest, `None` when empty. */
  function Get<T>(q: Queue<T>): (r: Option<(T, Queue<T>)>)
    ensures r.Some? <==> !Empty(q)
    ensures r.Some? ==> r.value.0 == q.items[0] && r.value.1.maxsize == q.maxsize && r.value.1.items == q.items[1..]
    ensures r.Some? && WithinBound(q) ==> WithinBound(r.value.1)
  {
    if Empty(q) then None else Some((q.items[0], Queue(q.items[1..], q.maxsize)))
  }

  /** Items leave in the order they arrived: putting then getting is getting then putting. */
  lemma Fifo<T>(q: Queue<T>, x: T)
    requires !Full(q) && !Empty(q)
    ensures Get(Put(q, x).value) == Some((q.items[0], Put(Get(q).value.1, x).value))
  {
    assert (q.items + [x])[1..] == q.items[1..] + [x];
  }

  /** A put on an empty queue never blocks, and the next get returns the item and empties the queue. */
  lemma PutThenGet<T>(q: Queue<T>, x: T)
    requires Empty(q)
    ensures Put(q, x).Some?
    ensures Get(Put(q, x).value) == Some((x, q))
  {
    assert q.items == [];
  }

  /**
   * The slot discipline of both frame loops: `if q.empty(): q.put(x)`.
   * An empty queue takes the item; a non-empty one is left as it was, so
   * the new item is the one dropped.
   */
  function OfferIfEmpty<T>(q: Queue<T>, x: T): (r: Queue<T>)
    ensures r.maxsize == q.maxsize
    ensures Empty(q) ==> r.items == [x]
    ensures !Empty(q) ==> r == q
    ensures WithinBound(q) && q.maxsize != 0 ==> |r.items| <= q.maxsize
  {
    if Empty(q) then Put(q, x).value else q
  }
}

=== FILE: cam_pipeline.dfy ===
/**
 * The live-camera risk overlay as a state machine. The capture loop offers
 * each frame to a one-frame queue only when it is empty and draws the
 * latest result; the worker takes a frame, calls the inference service,
 * writes the outcome's text to `last_result` and sleeps.
 *
 * Each event is one atomic step of one of the two threads. A blocking
 * `get` that would wait is an event that is not enabled. Thread
 * scheduling, the lock and wall-clock time are not modelled.
 */
module CamPipeline {
  import opened Base
  import opened Outcomes
  import opened Text
  import BQ = BoundedQueue

  /** A captured (and resized) camera frame; pixels are not modelled. */
  datatype Frame = Frame(id: nat)

  /** `Queue(maxsize=1)`. */
  const FRAME_QUEUE_SIZE: nat := 1

  /** Where the worker thread is in its loop. */
  datatype Phase =
    | Waiting                // blocked in frame_queue.get()
    | Calling(frame: Frame)  // encoding the frame and waiting for the reply
    | Sleeping               // in time.sleep(1)

  datatype State = State(
    frameQueue: BQ.Queue<Frame>,
    lastResult: string,
    phase: Phase,
    accepted: seq<Frame>,  // every frame the queue took, in order
    taken: seq<Frame>,     // every frame the worker took, in order
    writes: seq<string>)   // every value written to last_result, in order

  datatype Event =
    | Capture(frame: Frame)         // one iteration of the capture loop
    | Take                          // the worker's frame_queue.get() returns
    | Finish(outcome: CallOutcome)  // the worker's request is over and last_result is written
    | Wake                          // the worker's sleep is over

  function Init(): State {
    State(BQ.New(FRAME_QUEUE_SIZE), SENTINEL, Waiting, [], [], [])
  }

  /** What one iteration of the capture loop does with the frame it shows. */
  datatype Drawing =
    | Overlay(text: string)  // the text box with `last_result`, wrapped
    | Plain                  // the frame without a text box
    | Crash                  // the loop dies with an uncaught exception

  /**
   * `textwrap.wrap(text)` yields no lines when `text` is empty or all ASCII
   * whitespace (textwrap splits at the same ASCII set as here). Chunks that
   * only Unicode whitespace makes blank are not covered.
   */
  predicate WrapsToNothing(text: string) {
    AllSpace(text)
  }

  /**
   * The overlay step as the capture loop is written: it sizes the box with
   * `max(...)` over the wrapped lines, which raises `ValueError` when there
   * are none, and nothing catches it.
   */
  function RenderAsWritten(s: State): (d: Drawing)
    ensures d == Crash <==> WrapsToNothing(s.lastResult)
    ensures d != Crash ==> d == Overlay(s.lastResult)
  {
    if WrapsToNothing(s.lastResult) then Crash else Overlay(s.lastResult)
  }

  /**
   * The overlay step as evidently intended: draw `last_result` when it has
   * something to show, otherwise show the frame without a box.
   */
  function Render(s: State): (d: Drawing)
    ensures d != Crash
    ensures RenderAsWritten(s) != Crash ==> d == RenderAsWritten(s)
  {
    if WrapsToNothing(s.lastResult) then Plain else Overlay(s.lastResult)
  }

  /** One event; `None` when the event cannot happen in `s` (its thread would block or is elsewhere). */
  function Step(s: State, e: Event): (r: Option<State>)
    ensures e.Capture? ==> r.Some?
    ensures e.Take? ==> (r.Some? <==> s.phase.Waiting? && !BQ.Empty(s.frameQueue))
    ensures e.Finish? ==> (r.Some? <==> s.phase.Calling?)
    ensures e.Wake? ==> (r.Some? <==> s.phase.Sleeping?)
    ensures r.Some? && !e.Finish? ==> r.value.lastResult == s.lastResult && r.value.writes == s.writes
    ensures r.Some? && e.Finish? ==> r.value.writes == s.writes + [r.value.lastResult]
    ensures r.Some? && e.Finish? ==> r.value.lastResult == WorkerMessage(e.outcome)
  {
    match e
    case Capture(f) =>
      var accepted := if BQ.Empty(s.frameQueue) then s.accepted + [f] else s.accepted;
      Some(s.(frameQueue := BQ.OfferIfEmpty(s.frameQueue, f), accepted := accepted))
    case Take =>
      if !s.phase.Waiting? then None
      else
        (match BQ.Get(s.frameQueue)
         case None => None
         case Some((f, q)) => Some(s.(frameQueue := q, phase := Calling(f), taken := s.taken + [f])))
    case Finish(o) =>
      if !s.phase.Calling? then None
      else
        var text := WorkerMessage(o);
        Some(s.(lastResult := text, phase := Sleeping, writes := s.writes + [text]))
    case Wake =>
      if s.phase.Sleeping? then Some(s.(phase := Waiting)) else None
  }

  /** The state after a trace of events, or `None` if some event in it cannot happen. */
  function Run(s: State, trace: seq<Event>): Option<State>
    decreases |trace|
  {
    if |trace| == 0 then Some(s)
    else
      match Step(s, trace[0])
      case None => None
      case Some(s') => Run(s', trace[1..])
  }

  /**
   * What holds in every reachable state: the queue holds at most one
   * frame; every accepted frame is either taken or still queued, in order;
   * the worker has a frame in hand exactly when it has taken one more than
   * it has reported on; and `last_result` is the latest write, or the
   * sentinel before the first one.
   */
  predicate Inv(s: State) {
    && s.frameQueue.maxsize == FRAME_QUEUE_SIZE
    && |s.frameQueue.items| <= 1
    && s.taken + s.frameQueue.items == s.accepted
    && |s.taken| == |s.writes| + (if s.phase.Calling? then 1 else 0)
    && (s.phase.Calling? ==> s.phase.frame == s.taken[|s.taken| - 1])
    && s.lastResult == (if |s.writes| == 0 then SENTINEL else s.writes[|s.writes| - 1])
  }

  lemma InitInv()
    ensures Inv(Init())
  {
  }

  lemma StepPreservesInv(s: State, e: Event)
    requires Inv(s)
    ensures Step(s, e).Some? ==> Inv(Step(s, e).value)
  {
    match e
    case Capture(f) =>
      if BQ.Empty(s.frameQueue) {
        assert s.taken == s.accepted;
      }
    case Take =>
      if Step(s, e).Some? {
        var q := s.frameQueue;
        assert q.items == [q.items[0]];
        assert s.taken + [q.items[0]] + q.items[1..] == s.accepted;
      }
    case Finish(o) =>
    case Wake =>
  }

  /** The invariant holds after every trace that can happen. */
  lemma {:induction false} RunPreservesInv(s: State, trace: seq<Event>)
    requires Inv(s)
    ensures Run(s, trace).Some? ==> Inv(Run(s, trace).value)
    decreases |trace|
  {
    if |trace| > 0 {
      StepPreservesInv(s, trace[0]);
      if Step(s, trace[0]).Some? {
        RunPreservesInv(Step(s, trace[0]).value, trace[1..]);
      }
    }
  }

  /** Every reachable state satisfies the invariant; in particular the queue never holds two frames. */
  lemma Reachable(trace: seq<Event>)
    requires Run(Init(), trace).Some?
    ensures Inv(Run(Init(), trace).value)
    ensures |Run(Init(), trace).value.frameQueue.items| <= 1
  {
    InitInv();
    RunPreservesInv(Init(), trace);
  }

  /** A capture while a frame waits keeps the old frame and drops the new one. */
  lemma CaptureDropsNewWhenFull(s: State, queued: Frame, f: Frame)
    requires s.frameQueue.items == [queued]
    ensures Step(s, Capture(f)).value.frameQueue.items == [queued]
    ensures Step(s, Capture(f)).value.accepted == s.accepted
  {
  }

  /** Every captured frame is a candidate (there is no frame skipping): an empty queue always takes it. */
  lemma CaptureFillsEmptySlot(s: State, f: Frame)
    requires BQ.Empty(s.frameQueue)
    ensures Step(s, Capture(f)).value.frameQueue.items == [f]
    ensures Step(s, Capture(f)).value.accepted == s.accepted + [f]
  {
  }

  /** The worker's take returns the one queued frame and leaves the queue empty. */
  lemma TakeEmptiesSlot(s: State, f: Frame)
    requires Inv(s) && s.phase.Waiting? && s.frameQueue.items == [f]
    ensures Step(s, Take).Some?
    ensures Step(s, Take).value.phase == Calling(f)
    ensures BQ.Empty(Step(s, Take).value.frameQueue)
  {
  }

  /** Number of `Finish` events in a trace. */
  function Finishes(trace: seq<Event>): nat {
    if |trace| == 0 then 0 else (if trace[0].Finish? then 1 else 0) + Finishes(trace[1..])
  }

  /** `last_result` is written exactly once per finished request, and by nothing else. */
  lemma {:induction false} OneWritePerRequest(s: State, trace: seq<Event>)
    ensures Run(s, trace).Some? ==> |Run(s, trace).value.writes| == |s.writes| + Finishes(trace)
    decreases |trace|
  {
    if |trace| > 0 && Step(s, trace[0]).Some? {
      OneWritePerRequest(Step(s, trace[0]).value, trace[1..]);
    }
  }

  /**
   * The display shows "Processing..." until the worker's first write, and
   * from then on the text of the latest finished request (or no box, when
   * that text is blank).
   */
  lemma DisplayShowsLatest(trace: seq<Event>)
    requires Run(Init(), trace).Some?
    ensures var s := Run(Init(), trace).value;
      && |s.writes| == Finishes(trace)
      && (Finishes(trace) == 0 ==> Render(s) == Overlay(SENTINEL))
      && (Finishes(trace) > 0 ==>
            var latest := s.writes[|s.writes| - 1];
            Render(s) == if WrapsToNothing(latest) then Plain else Overlay(latest))
  {
    Reachable(trace);
    OneWritePerRequest(Init(), trace);
    var s := Run(Init(), trace).value;
    if Finishes(trace) == 0 {
      assert SENTINEL[0] == 'P';
    }
  }

  /**
   * The as-written overlay step crashes the capture loop as soon as the
   * service answers with an empty "response": one capture, one take and
   * one finished request suffice.
   */
  lemma EmptyReplyCrashesCapture(f: Frame)
    ensures Run(Init(), [Capture(f), Take, Finish(Responded(Some("")))]).Some?
    ensures RenderAsWritten(Run(Init(), [Capture(f), Take, Finish(Responded(Some("")))]).value) == Crash
  {
    var trace := [Capture(f), Take, Finish(Responded(Some("")))];
    var s1 := Step(Init(), Capture(f)).value;
    var s2 := Step(s1, Take).value;
    var s3 := Step(s2, Finish(Responded(Some("")))).value;
    assert s3.lastResult == "";
    assert trace[1..] == [Take, Finish(Responded(Some("")))];
    assert trace[1..][1..] == [Finish(Responded(Some("")))];
    assert Run(s2, [Finish(Responded(Some("")))]) == Some(s3);
    assert Run(s1, trace[1..]) == Some(s3);
  }

  /** A frame offered while another waits is never processed: the worker takes the first one. */
  lemma SecondFrameDropped(f1: Frame, f2: Frame)
    ensures Run(Init(), [Capture(f1), Capture(f2), Take]).Some?
    ensures var s := Run(Init(), [Capture(f1), Capture(f2), Take]).value;
      s.phase == Calling(f1) && BQ.Empty(s.frameQueue) && s.accepted == [f1]
  {
    var trace := [Capture(f1), Capture(f2), Take];
    var s1 := Step(Init(), Capture(f1)).value;
    var s2 := Step(s1, Capture(f2)).value;
    assert s1.frameQueue.items == [f1];
    assert s2.frameQueue.items == [f1];
    var s3 := Step(s2, Take).value;
    assert s3.phase == Calling(f1) && s3.frameQueue.items == [];
    assert trace[1..] == [Capture(f2), Take] && trace[1..][1..] == [Take] && [Take][1..] == [];
    assert Run(s2, [Take]) == Some(s3);
    assert Run(s1, [Capture(f2), Take]) == Some(s3);
  }
}

=== FILE: chat.dfy ===
/**
 * The one-shot image chatbot: `ask_ollama(image, prompt)` refuses an
 * incomplete form without making a request, and otherwise turns the
 * request's outcome into exactly one reply text.
 */
module Chat {
  import opened Base
  import opened Outcomes

  const PLEASE_UPLOAD: string := "Please upload an image and enter a prompt."
  const TIMED_OUT: string := "Error: Request to Ollama timed out. Make sure the Ollama server is running."
  const NO_CONNECTION: string := "Error: Could not connect to Ollama. Ensure it's running on the correct port."
  const UNEXPECTED: string := "Unexpected error: "

  /** This script's clause order: `except Timeout`, then `except ConnectionError`. */
  const CHAT_CLAUSES: seq<Handler> := [TimeoutHandler, ConnectionErrorHandler]

  /** `ask_ollama(image, prompt)`; `call` is what the request did. */
  function AskOllama(image: Option<Image>, prompt: Option<string>, call: CallOutcome): (reply: string)
    ensures image.None? || !Truthy(prompt) ==> reply == PLEASE_UPLOAD
  {
    if image.None? || !Truthy(prompt) then PLEASE_UPLOAD
    else
      match call
      case Responded(response) => response.GetOr(NO_RESPONSE)
      case Raised(e) =>
        match FirstMatch(e, CHAT_CLAUSES)
        case Some(0) => TIMED_OUT
        case Some(_) => NO_CONNECTION
        case None => UNEXPECTED + e.text
  }

  /** An incomplete form is answered without a request: the outcome plays no part. */
  lemma NoRequestWithoutInput(image: Option<Image>, prompt: Option<string>, c1: CallOutcome, c2: CallOutcome)
    requires image.None? || !Truthy(prompt)
    ensures AskOllama(image, prompt, c1) == AskOllama(image, prompt, c2) == PLEASE_UPLOAD
  {
  }

  /**
   * With a complete form, each outcome gets its own reply: the response
   * text (or the fallback), the timeout text, the connection text, or the
   * exception's text after "Unexpected error: ". A timeout is reported as
   * a timeout even when it is also a connection error.
   */
  lemma ReplyForOutcome(image: Image, prompt: string, call: CallOutcome)
    requires prompt != ""
    ensures var reply := AskOllama(Some(image), Some(prompt), call);
      && (call.Responded? ==> reply == call.response.GetOr(NO_RESPONSE))
      && (call.Raised? && TimeoutHandler in call.error.caughtBy ==> reply == TIMED_OUT)
      && ((call.Raised? && TimeoutHandler !in call.error.caughtBy && ConnectionErrorHandler in call.error.caughtBy)
            ==> reply == NO_CONNECTION)
      && ((call.Raised? && TimeoutHandler !in call.error.caughtBy && ConnectionErrorHandler !in call.error.caughtBy)
            ==> reply == UNEXPECTED + call.error.text)
  {
    if call.Raised? && TimeoutHandler !in call.error.caughtBy {
      assert CHAT_CLAUSES[1] == ConnectionErrorHandler;
    }
  }

  /** A failed request is never answered with the refusal text, so the two cases stay apart. */
  lemma FailureRepliesDiffer(image: Image, prompt: string, e: Exception)
    requires prompt != ""
    ensures AskOllama(Some(image), Some(prompt), Raised(e)) != PLEASE_UPLOAD
  {
    var reply := AskOllama(Some(image), Some(prompt), Raised(e));
    if reply == UNEXPECTED + e.text {
      assert reply[0] != PLEASE_UPLOAD[0];
    }
  }
}

=== FILE: markdown_table.dfy ===
/**
 * `parse_markdown_table` of the safety chatbot: find the first run of lines
 * that contain a pipe, keep that run as the original table text, and turn
 * every line of it that is not a separator line (`|---|---|`) into a row of
 * whitespace-stripped cells.
 *
 * The input is the sequence of lines `splitlines()` produced; the model
 * does not re-implement `splitlines`.
 */
module MarkdownTable {
  import opened Text

  predicate HasPipe(line: string) {
    '|' in line
  }

  /** The characters a separator line may consist of once stripped. */
  const SEPARATOR_CHARS: string := "|- :"

  /** `set(line.strip()) <= set("|- :")`. */
  predicate IsSeparator(line: string) {
    var t := Strip(line);
    forall i :: 0 <= i < |t| ==> t[i] in SEPARATOR_CHARS
  }

  /** `[cell.strip() for cell in line.split('|')]`. */
  function Cells(line: string): (cs: seq<string>)
    ensures |cs| == Count(line, '|') + 1
    ensures forall k :: 0 <= k < |cs| ==> Stripped(cs[k]) && '|' !in cs[k]
  {
    SplitCount(line, '|');
    var parts := Split(line, '|');
    seq(|parts|, k requires 0 <= k < |parts| => Strip(parts[k]))
  }

  /**
   * Cell k is the k-th pipe-separated piece of the line with its surrounding
   * whitespace cut; with `StripUnique` and `JoinSplit` this fixes every cell.
   */
  lemma CellsArePieces(line: string)
    ensures |Cells(line)| == |Split(line, '|')|
    ensures forall k :: 0 <= k < |Cells(line)| ==> TrimmedOf(Cells(line)[k], Split(line, '|')[k])
  {
    SplitCount(line, '|');
    var cs, parts := Cells(line), Split(line, '|');
    forall k | 0 <= k < |cs|
      ensures TrimmedOf(cs[k], parts[k])
    {
      var lead, trail := StripCutsSpace(parts[k]);
      assert parts[k] == lead + cs[k] + trail;
    }
  }

  /** How many cells the row drops at its start: one if the first cell is empty. */
  function LeadCut(cs: seq<string>): nat {
    if |cs| > 0 && cs[0] == "" then 1 else 0
  }

  /** One table row: the stripped cells without an empty first cell and without an empty last cell. */
  function ParseRow(line: string): (row: seq<string>) {
    var cs := Cells(line);
    var afterLead := if |cs| > 0 && cs[0] == "" then cs[1..] else cs;
    if |afterLead| > 0 && afterLead[|afterLead| - 1] == "" then afterLead[..|afterLead| - 1] else afterLead
  }

  /**
   * A row is the line's stripped cells minus at most one empty cell at the
   * start and at most one at the end; every other cell, empty or not, is
   * kept in place.
   */
  lemma ParseRowTrims(line: string)
    ensures var cs, row := Cells(line), ParseRow(line);
      && LeadCut(cs) + |row| <= |cs|
      && row == cs[LeadCut(cs)..LeadCut(cs) + |row|]
      && (LeadCut(cs) + |row| < |cs| <==> (LeadCut(cs) < |cs| && cs[|cs| - 1] == ""))
      && |cs| - 1 <= LeadCut(cs) + |row|
    ensures forall k :: 0 <= k < |ParseRow(line)| ==> Stripped(ParseRow(line)[k])
  {
    var cs, row := Cells(line), ParseRow(line);
    var lead := LeadCut(cs);
    var afterLead := cs[lead..];
    if |afterLead| > 0 && afterLead[|afterLead| - 1] == "" {
      assert row == cs[lead..|cs| - 1];
    } else {
      assert row == cs[lead..];
    }
    forall k | 0 <= k < |row|
      ensures Stripped(row[k])
    {
      assert row[k] == cs[lead + k];
    }
  }

  /**
   * A row line always yields at least one cell: the only pipe lines whose
   * cells are all trimmed away are blank around a single pipe, and those
   * are separator lines.
   */
  lemma RowNeverEmpty(line: string)
    requires HasPipe(line) && !IsSeparator(line)
    ensures |ParseRow(line)| >= 1
  {
    var cs := Cells(line);
    CountPositive(line, '|');
    ParseRowTrims(line);
    if |cs| == 2 && cs[0] == "" && cs[1] == "" {
      BlankAroundPipeIsSeparator(line);
      assert false;
    }
  }

  /** A line that is only whitespace around one pipe is a separator line. */
  lemma BlankAroundPipeIsSeparator(line: string)
    requires |Cells(line)| == 2 && Cells(line)[0] == "" && Cells(line)[1] == ""
    ensures IsSeparator(line)
  {
    var parts := Split(line, '|');
    var lead0, trail0 := StripCutsSpace(parts[0]);
    var lead1, trail1 := StripCutsSpace(parts[1]);
    assert parts[0] == lead0 + trail0;
    assert parts[1] == lead1 + trail1;
    AllSpaceConcat(lead0, trail0);
    AllSpaceConcat(lead1, trail1);
    JoinSplit(line, '|');
    assert line == parts[0] + "|" + parts[1];
    StripUnique(parts[0], "|", parts[1]);
  }

  lemma AllSpaceConcat(a: string, b: string)
    requires AllSpace(a) && AllSpace(b)
    ensures AllSpace(a + b)
  {
  }

  lemma {:induction false} CountPositive(s: string, c: char)
    requires c in s
    ensures Count(s, c) >= 1
  {
    if s[0] != c {
      assert c in s[1..];
      CountPositive(s[1..], c);
    }
  }

  /** Index of the first line that contains a pipe, or `|lines|`. */
  function TableStart(lines: seq<string>): (i: nat)
    ensures i <= |lines|
    ensures forall k :: 0 <= k < i ==> !HasPipe(lines[k])
    ensures i < |lines| ==> HasPipe(lines[i])
  {
    if |lines| == 0 || HasPipe(lines[0]) then 0 else 1 + TableStart(lines[1..])
  }

  /** The first pipe line is the only index with no pipe line before it and a pipe line (or the end) at it. */
  lemma TableStartUnique(lines: seq<string>, i: nat)
    requires i <= |lines|
    requires forall k :: 0 <= k < i ==> !HasPipe(lines[k])
    requires i < |lines| ==> HasPipe(lines[i])
    ensures TableStart(lines) == i
  {
  }

  /** One past the last line of the run of pipe lines starting at `i`. */
  function RunEnd(lines: seq<string>, i: nat): (j: nat)
    requires i <= |lines|
    ensures i <= j <= |lines|
    ensures forall k :: i <= k < j ==> HasPipe(lines[k])
    ensures j < |lines| ==> !HasPipe(lines[j])
    decreases |lines| - i
  {
    if i < |lines| && HasPipe(lines[i]) then RunEnd(lines, i + 1) else i
  }

  /** A run of pipe lines from `i` ends at the only index that is preceded by pipe lines and is not one. */
  lemma RunEndUnique(lines: seq<string>, i: nat, j: nat)
    requires i <= j <= |lines|
    requires forall k :: i <= k < j ==> HasPipe(lines[k])
    requires j < |lines| ==> !HasPipe(lines[j])
    ensures RunEnd(lines, i) == j
  {
  }

  /** One past the last table line: the first line without a pipe after the table starts. */
  function TableEnd(lines: seq<string>): (j: nat)
    ensures TableStart(lines) <= j <= |lines|
    ensures forall k :: TableStart(lines) <= k < j ==> HasPipe(lines[k])
    ensures j < |lines| ==> !HasPipe(lines[j])
  {
    RunEnd(lines, TableStart(lines))
  }

  /** The table's lines, separators included: the first contiguous run of pipe lines. */
  function TableLines(lines: seq<string>): seq<string> {
    lines[TableStart(lines)..TableEnd(lines)]
  }

  /** The rows of a run of table lines: one per non-separator line, in order. */
  function RowsOf(tableLines: seq<string>): seq<seq<string>> {
    if |tableLines| == 0 then []
    else
      var line := tableLines[|tableLines| - 1];
      RowsOf(tableLines[..|tableLines| - 1]) + (if IsSeparator(line) then [] else [ParseRow(line)])
  }

  /** What `parse_markdown_table` returns: the rows and the original table text. */
  datatype Table = Table(rows: seq<seq<string>>, original: string)

  function ParsedTable(lines: seq<string>): Table {
    Table(RowsOf(TableLines(lines)), Join(TableLines(lines), "\n"))
  }

  /**
   * The parser's loop, line by line as the source walks them, returning
   * exactly the rows and text that `ParsedTable` describes.
   */
  method ParseMarkdownTable(lines: seq<string>) returns (rows: seq<seq<string>>, original: string)
    ensures Table(rows, original) == ParsedTable(lines)
  {
    var tableLines: seq<string> := [];
    rows := [];
    var inTable := false;
    var i := 0;
    while i < |lines|
      invariant 0 <= i <= |lines|
      invariant !inTable ==> i <= TableStart(lines) && tableLines == [] && rows == []
      invariant inTable ==> TableStart(lines) < i <= TableEnd(lines)
      invariant inTable ==> tableLines == lines[TableStart(lines)..i] && rows == RowsOf(tableLines)
    {
      var line := lines[i];
      if '|' in line {
        assert TableStart(lines) <= i < TableEnd(lines);
        if !inTable {
          assert i == TableStart(lines);
        }
        inTable := true;
        SliceExtend(lines, TableStart(lines), i);
        tableLines := tableLines + [line];
        assert tableLines[..|tableLines| - 1] == lines[TableStart(lines)..i];
        if !IsSeparator(line) {
          var parts := ParseRow(line);
          rows := rows + [parts];
        }
      } else if inTable {
        assert i == TableEnd(lines);
        break;
      } else {
        assert i < TableStart(lines);
      }
      i := i + 1;
    }
    if !inTable {
      assert TableStart(lines) == |lines|;
    } else if i == |lines| {
      assert TableEnd(lines) == |lines|;
    }
    original := Join(tableLines, "\n");
  }

  lemma SliceExtend<T>(s: seq<T>, a: nat, b: nat)
    requires a <= b < |s|
    ensures s[a..b + 1] == s[a..b] + [s[b]]
  {
  }

  /** The positions, within the table lines, of the lines that become rows. */
  function RowSources(tableLines: seq<string>): (src: seq<nat>)
    ensures forall k :: 0 <= k < |src| ==> src[k] < |tableLines| && !IsSeparator(tableLines[src[k]])
    ensures forall k, m :: 0 <= k < m < |src| ==> src[k] < src[m]
    ensures forall i :: 0 <= i < |tableLines| && !IsSeparator(tableLines[i]) ==> i in src
  {
    if |tableLines| == 0 then []
    else
      var n := |tableLines| - 1;
      RowSources(tableLines[..n]) + (if IsSeparator(tableLines[n]) then [] else [n])
  }

  /**
   * Every row comes from its own non-separator table line, in order, and
   * every non-separator line gives a row; separator lines give none.
   */
  lemma {:induction false} RowsFromDistinctLines(tableLines: seq<string>)
    ensures |RowsOf(tableLines)| == |RowSources(tableLines)| <= |tableLines|
    ensures forall k :: 0 <= k < |RowSources(tableLines)| ==>
              RowsOf(tableLines)[k] == ParseRow(tableLines[RowSources(tableLines)[k]])
  {
    if |tableLines| > 0 {
      var n := |tableLines| - 1;
      var prev, line := tableLines[..n], tableLines[n];
      RowsFromDistinctLines(prev);
      var src, rows := RowSources(prev), RowsOf(prev);
      var allSrc, allRows := RowSources(tableLines), RowsOf(tableLines);
      assert allRows == rows + (if IsSeparator(line) then [] else [ParseRow(line)]);
      assert allSrc == src + (if IsSeparator(line) then [] else [n]);
      forall k | 0 <= k < |allSrc|
        ensures allRows[k] == ParseRow(tableLines[allSrc[k]])
      {
        if k < |src| {
          assert allRows[k] == rows[k] && allSrc[k] == src[k];
          assert prev[src[k]] == tableLines[src[k]];
        }
      }
    }
  }

  /** Input without any pipe line yields no rows and empty table text. */
  lemma NoPipeNoTable(lines: seq<string>)
    requires forall k :: 0 <= k < |lines| ==> !HasPipe(lines[k])
    ensures ParsedTable(lines) == Table([], "")
  {
    assert TableStart(lines) == |lines|;
  }

  /** Lines without a pipe before the table are ignored. */
  lemma {:induction false} LeadingLinesIgnored(prefix: seq<string>, lines: seq<string>)
    requires forall k :: 0 <= k < |prefix| ==> !HasPipe(prefix[k])
    ensures TableLines(prefix + lines) == TableLines(lines)
    ensures ParsedTable(prefix + lines) == ParsedTable(lines)
  {
    var all := prefix + lines;
    var s := TableStart(lines);
    var e := TableEnd(lines);
    forall k | 0 <= k < |prefix| + s ensures !HasPipe(all[k]) {
      if k >= |prefix| { assert all[k] == lines[k - |prefix|]; }
    }
    if s < |lines| { assert all[|prefix| + s] == lines[s]; }
    TableStartUnique(all, |prefix| + s);
    forall k | |prefix| + s <= k < |prefix| + e ensures HasPipe(all[k]) {
      assert all[k] == lines[k - |prefix|];
    }
    if e < |lines| { assert all[|prefix| + e] == lines[e]; }
    RunEndUnique(all, |prefix| + s, |prefix| + e);
    assert all[|prefix| + s..|prefix| + e] == lines[s..e];
  }

  /**
   * Once the table has ended at a line without a pipe, nothing after that
   * line matters: replacing the rest of the input changes nothing.
   */
  lemma {:induction false} LinesAfterTableIgnored(lines: seq<string>, rest: seq<string>)
    requires TableStart(lines) < TableEnd(lines) < |lines|
    ensures TableLines(lines[..TableEnd(lines) + 1] + rest) == TableLines(lines)
    ensures ParsedTable(lines[..TableEnd(lines) + 1] + rest) == ParsedTable(lines)
  {
    var e := TableEnd(lines);
    var all := lines[..e + 1] + rest;
    var s := TableStart(lines);
    assert forall k :: 0 <= k <= e ==> all[k] == lines[k];
    TableStartUnique(all, s);
    RunEndUnique(all, s, e);
    assert all[s..e] == lines[s..e];
  }

  /**
   * The original table text is exactly the table lines joined by newlines:
   * splitting it at newlines gives the lines back, separators included.
   */
  lemma OriginalTableRoundTrip(lines: seq<string>)
    requires forall k :: 0 <= k < |lines| ==> '\n' !in lines[k]
    requires TableStart(lines) < |lines|
    ensures Split(ParsedTable(lines).original, '\n') == TableLines(lines)
  {
    var tl := TableLines(lines);
    TableLinesWithoutNewline(lines);
    SplitJoin(tl, '\n');
    assert ParsedTable(lines).original == Join(tl, "\n");
  }

  /** A table that exists has at least one line, and its lines are lines of the input. */
  lemma TableLinesWithoutNewline(lines: seq<string>)
    requires forall k :: 0 <= k < |lines| ==> '\n' !in lines[k]
    requires TableStart(lines) < |lines|
    ensures |TableLines(lines)| >= 1
    ensures forall k :: 0 <= k < |TableLines(lines)| ==> '\n' !in TableLines(lines)[k]
  {
    var start, end := TableStart(lines), TableEnd(lines);
    var tl := lines[start..end];
    assert |tl| >= 1;
    forall k | 0 <= k < |tl|
      ensures '\n' !in tl[k]
    {
      assert tl[k] == lines[start + k];
    }
  }
}

=== FILE: outcomes.dfy ===
/**
 * What one call to the inference service can come back with, and how the
 * camera and video workers turn that into the text they display.
 *
 * The HTTP request, `raise_for_status()` and the JSON decoding are not
 * modelled; their joint result is a `CallOutcome`. Which exception class a
 * raised error belongs to is library behaviour, so an exception is described
 * only by the set of `except` clauses that would catch it, and the clause
 * that runs is the first catching one in the order the script lists them.
 */
module Outcomes {
  import opened Base

  /** The named `except` clauses the scripts list before their catch-all `except Exception`. */
  datatype Handler = TimeoutHandler | ConnectionErrorHandler | RequestExceptionHandler

  /** A raised exception: the clauses whose class it is an instance of, and `str(e)`. */
  datatype Exception = Exception(caughtBy: set<Handler>, text: string)

  datatype CallOutcome =
    | Responded(response: Option<string>)  // the reply's "response" field; None when absent
    | Raised(error: Exception)

  /**
   * The position of the first clause in `clauses` that catches `e`, or
   * `None` when only the trailing catch-all does.
   */
  function FirstMatch(e: Exception, clauses: seq<Handler>): (r: Option<nat>)
    ensures r.Some? ==> r.value < |clauses| && clauses[r.value] in e.caughtBy
    ensures r.Some? ==> forall k :: 0 <= k < r.value ==> clauses[k] !in e.caughtBy
    ensures r.None? ==> forall k :: 0 <= k < |clauses| ==> clauses[k] !in e.caughtBy
  {
    if |clauses| == 0 then None
    else if clauses[0] in e.caughtBy then Some(0)
    else match FirstMatch(e, clauses[1..])
      case None => None
      case Some(k) => Some(k + 1)
  }

  /** Shown when a reply has no "response" field. */
  const NO_RESPONSE: string := "No response received"

  /** The two overlay scripts' `last_result` before their worker's first write. */
  const SENTINEL: string := "Processing..."

  /** The worker's clause order: `except Timeout`, then `except ConnectionError`. */
  const WORKER_CLAUSES: seq<Handler> := [TimeoutHandler, ConnectionErrorHandler]

  /**
   * The text one worker iteration stores in `last_result`, for the camera
   * and the video worker alike. Every outcome yields exactly one text; a
   * timeout that is also a connection error is reported as a timeout.
   */
  function WorkerMessage(o: CallOutcome): (msg: string)
    ensures o == Responded(None) ==> msg == NO_RESPONSE
    ensures o.Responded? && o.response.Some? ==> msg == o.response.value
    ensures o.Raised? && TimeoutHandler in o.error.caughtBy ==> msg == "Error: Timeout"
    ensures o.Raised? && TimeoutHandler !in o.error.caughtBy && ConnectionErrorHandler in o.error.caughtBy ==>
              msg == "Error: Connection failed"
    ensures o.Raised? && TimeoutHandler !in o.error.caughtBy && ConnectionErrorHandler !in o.error.caughtBy ==>
              msg == "Error: " + o.error.text
  {
    match o
    case Responded(r) => r.GetOr(NO_RESPONSE)
    case Raised(e) =>
      match FirstMatch(e, WORKER_CLAUSES)
      case Some(0) => "Error: Timeout"
      case Some(_) => "Error: Connection failed"
      case None =>
        assert WORKER_CLAUSES[1] == ConnectionErrorHandler;
        "Error: " + e.text
  }

  /** Every failure is displayed as text beginning with "Error: ", never swallowed. */
  lemma FailureShownAsError(e: Exception)
    ensures WorkerMessage(Raised(e))[..7] == "Error: "
  {
  }
}

=== FILE: safety_app.dfy ===
/**
 * The decision logic of the workplace-safety chatbot: the order in which
 * `ask_ollama` validates its form, how each failure is turned into a
 * red error banner, how the model's Markdown reply becomes header and data
 * rows, and how `save_report` validates and defaults the feedback record.
 *
 * The image encoding, the HTTP call, the clock and the file writes are not
 * modelled; their results are parameters.
 */
module SafetyApp {
  import opened Base
  import opened Text
  import opened Outcomes
  import MarkdownTable

  const MODEL_USED: string := "llava:13b"
  const SYSTEM_VERSION: string := "v1.0.0"

  // ---------------------------------------------------------------------
  // Error banners
  // ---------------------------------------------------------------------

  const ERROR_OPEN: string := "<span style='color: red;'>\U{2757} "
  const ERROR_CLOSE: string := "</span>"

  /** `format_error`: the message inside a red span. */
  function FormatError(message: string): (html: string)
    ensures |html| == |ERROR_OPEN| + |message| + |ERROR_CLOSE|
  {
    ERROR_OPEN + message + ERROR_CLOSE
  }

  /** Reads the message back out of an error banner; `None` for any other text. */
  function ErrorMessage(html: string): (m: Option<string>)
    ensures m.Some? ==> |html| == |ERROR_OPEN| + |m.value| + |ERROR_CLOSE|
  {
    if |html| >= |ERROR_OPEN| + |ERROR_CLOSE|
       && html[..|ERROR_OPEN|] == ERROR_OPEN
       && html[|html| - |ERROR_CLOSE|..] == ERROR_CLOSE
    then Some(html[|ERROR_OPEN|..|html| - |ERROR_CLOSE|])
    else None
  }

  /** The banner carries its message intact: reading it back gives the message. */
  lemma ErrorMessageOfFormatError(message: string)
    ensures ErrorMessage(FormatError(message)) == Some(message)
  {
    var html := FormatError(message);
    assert html[..|ERROR_OPEN|] == ERROR_OPEN;
    assert html[|html| - |ERROR_CLOSE|..] == ERROR_CLOSE;
    assert html[|ERROR_OPEN|..|html| - |ERROR_CLOSE|] == message;
  }

  /** Conversely, every text that reads as a banner is the banner of its message. */
  lemma FormatErrorOfErrorMessage(html: string)
    requires ErrorMessage(html).Some?
    ensures FormatError(ErrorMessage(html).value) == html
  {
    var m := ErrorMessage(html).value;
    assert html == html[..|ERROR_OPEN|] + html[|ERROR_OPEN|..|html| - |ERROR_CLOSE|] + html[|html| - |ERROR_CLOSE|..];
  }

  // ---------------------------------------------------------------------
  // ask_ollama
  // ---------------------------------------------------------------------

  const PHOTO_MISSING: string := "Oops! You forgot to add a photo \U{1F4F8}"
  const DETAILS_MISSING: string := "Wait! We still need your deets first \U{1F464}"
  const IMAGE_FAILED: string := "Error processing image."
  const TIMED_OUT: string := "Request timed out. Please try again."
  const LOADING_HTML: string :=
    "<div style='text-align: center; padding: 20px; font-size: 18px;'>"
    + "<div style='margin-bottom: 10px; font-size: 22px;'>\U{1F504} Working on it....</div>"
    + "<div style='color: #666; font-size: 16px;'>Grab a coffee, this might take a minute \U{2615}</div>"
    + "</div>"

  /** The form as submitted: name, staff id and sector may be `None` or empty. */
  datatype Form = Form(
    image: Option<Image>,
    prompt: string,
    name: Option<string>,
    staffId: Option<string>,
    sector: Option<string>)

  /** `all([input_name, input_staff_id, input_sector])`. */
  predicate DetailsGiven(form: Form) {
    Truthy(form.name) && Truthy(form.staffId) && Truthy(form.sector)
  }

  /**
   * What `prepare_image` did: returned bytes, returned `None`, or raised.
   * As written it always returns bytes or raises (an image that cannot be
   * converted or saved raises inside the `try`); `EncodedNothing` covers the
   * `None` check the caller makes anyway.
   */
  datatype Prepared = Encoded | EncodedNothing | PrepareRaised(error: Exception)

  /** The `analysis_data` dictionary kept between the analysis and the export. */
  datatype AnalysisData = AnalysisData(
    text: string,
    rowsList: seq<seq<string>>,
    headers: seq<string>,
    image: Image,
    prompt: string,
    name: string,
    staffId: string,
    sector: string,
    modelUsed: string)

  /** The three values `ask_ollama` returns: Markdown, analysis data, status text. */
  datatype AskResult = AskResult(markdown: string, data: Option<AnalysisData>, status: Option<string>)

  /** The safety app's clause order: `except requests.Timeout`, then `except requests.RequestException`. */
  const SAFETY_CLAUSES: seq<Handler> := [TimeoutHandler, RequestExceptionHandler]

  /** The banner for an exception raised inside the analysis `try` block. */
  function FailureBanner(e: Exception): (html: string)
    ensures TimeoutHandler in e.caughtBy ==> html == FormatError(TIMED_OUT)
    ensures TimeoutHandler !in e.caughtBy && RequestExceptionHandler in e.caughtBy ==>
              html == FormatError("API request failed: " + e.text)
    ensures TimeoutHandler !in e.caughtBy && RequestExceptionHandler !in e.caughtBy ==>
              html == FormatError("Error: " + e.text)
  {
    match FirstMatch(e, SAFETY_CLAUSES)
    case Some(0) => FormatError(TIMED_OUT)
    case Some(_) => FormatError("API request failed: " + e.text)
    case None =>
      assert SAFETY_CLAUSES[1] == RequestExceptionHandler;
      FormatError("Error: " + e.text)
  }

  /** `rows_list[0] if rows_list else []`. */
  function Headers(rows: seq<seq<string>>): seq<string> {
    if |rows| > 0 then rows[0] else []
  }

  /** `rows_list[1:]`: the rows the export saves as data. */
  function DataRows(rows: seq<seq<string>>): seq<seq<string>> {
    if |rows| > 0 then rows[1..] else []
  }

  /** The header row followed by the data rows is the whole parsed table, nothing lost or repeated. */
  lemma HeaderDataSplit(rows: seq<seq<string>>)
    ensures |rows| > 0 ==> [Headers(rows)] + DataRows(rows) == rows
    ensures |rows| == 0 ==> Headers(rows) == [] && DataRows(rows) == []
    ensures |DataRows(rows)| == if |rows| > 0 then |rows| - 1 else 0
  {
    if |rows| > 0 {
      assert [rows[0]] + rows[1..] == rows;
    }
  }

  /** The reply text cut into lines, as the parser receives it. */
  function ReplyLines(text: string): seq<string> {
    Split(text, '\n')
  }

  /**
   * `ask_ollama(image, prompt, name, staff_id, sector, run_analysis)`.
   * `prepared` is what `prepare_image` did and `call` what the request did;
   * neither is consulted before the form has passed validation.
   */
  function AskOllama(form: Form, runAnalysis: bool, prepared: Prepared, call: CallOutcome): (r: AskResult)
    ensures r.data.Some? <==>
              form.image.Some? && DetailsGiven(form) && runAnalysis && prepared.Encoded? && call.Responded?
    ensures r.data.Some? ==>
              var text := call.response.GetOr("");
              var rows := MarkdownTable.ParsedTable(ReplyLines(text)).rows;
              && r.markdown == text
              && r.status.None?
              && r.data.value.text == text
              && r.data.value.rowsList == rows
              && r.data.value.headers == Headers(rows)
              && r.data.value.image == form.image.value
              && r.data.value.prompt == form.prompt
              && r.data.value.name == form.name.value
              && r.data.value.staffId == form.staffId.value
              && r.data.value.sector == form.sector.value
              && r.data.value.modelUsed == MODEL_USED
  {
    if form.image.None? then
      AskResult(FormatError(PHOTO_MISSING), None, None)
    else if !DetailsGiven(form) then
      AskResult(FormatError(DETAILS_MISSING), None, None)
    else if !runAnalysis then
      AskResult(LOADING_HTML, None, Some(""))
    else
      match prepared
      case EncodedNothing => AskResult(FormatError(IMAGE_FAILED), None, None)
      case PrepareRaised(e) => AskResult(FailureBanner(e), None, None)
      case Encoded =>
        match call
        case Raised(e) => AskResult(FailureBanner(e), None, None)
        case Responded(response) =>
          var text := response.GetOr("");
          var rows := MarkdownTable.ParsedTable(ReplyLines(text)).rows;
          var data := AnalysisData(text, rows, Headers(rows), form.image.value, form.prompt,
                                   form.name.value, form.staffId.value, form.sector.value, MODEL_USED);
          AskResult(text, Some(data), None)
  }

  /**
   * Validation happens in a fixed order: a missing photo wins over missing
   * details, and missing details win over the loading step.
   */
  lemma ValidationOrder(form: Form, runAnalysis: bool, prepared: Prepared, call: CallOutcome)
    ensures form.image.None? ==>
              AskOllama(form, runAnalysis, prepared, call) == AskResult(FormatError(PHOTO_MISSING), None, None)
    ensures form.image.Some? && !DetailsGiven(form) ==>
              AskOllama(form, runAnalysis, prepared, call) == AskResult(FormatError(DETAILS_MISSING), None, None)
    ensures form.image.Some? && DetailsGiven(form) && !runAnalysis ==>
              AskOllama(form, runAnalysis, prepared, call) == AskResult(LOADING_HTML, None, Some(""))
  {
  }

  /** Until validation passes and the analysis is asked for, no request is made: the outcome plays no part. */
  lemma NoRequestBeforeValidation(form: Form, runAnalysis: bool,
                                  p1: Prepared, c1: CallOutcome, p2: Prepared, c2: CallOutcome)
    requires form.image.None? || !DetailsGiven(form) || !runAnalysis
    ensures AskOllama(form, runAnalysis, p1, c1) == AskOllama(form, runAnalysis, p2, c2)
  {
  }

  /**
   * Once the analysis runs, every failure is a red banner with no analysis
   * data and no status. An exception while preparing the image or during
   * the request gets the banner of the first `except` clause that catches
   * it; a timeout is reported as a timeout even when it is also a request
   * failure.
   */
  lemma FailuresAreBanners(form: Form, prepared: Prepared, call: CallOutcome)
    requires form.image.Some? && DetailsGiven(form)
    requires !(prepared.Encoded? && call.Responded?)
    ensures var r := AskOllama(form, true, prepared, call);
      && r.data.None? && r.status.None?
      && ErrorMessage(r.markdown).Some?
      && (prepared.EncodedNothing? ==> ErrorMessage(r.markdown) == Some(IMAGE_FAILED))
      && (prepared.PrepareRaised? ==> r.markdown == FailureBanner(prepared.error))
      && (prepared.Encoded? ==> r.markdown == FailureBanner(call.error))
      && (prepared.Encoded? && TimeoutHandler in call.error.caughtBy ==>
            ErrorMessage(r.markdown) == Some(TIMED_OUT))
      && (prepared.Encoded? && TimeoutHandler !in call.error.caughtBy
            && RequestExceptionHandler in call.error.caughtBy ==>
            ErrorMessage(r.markdown) == Some("API request failed: " + call.error.text))
  {
    var r := AskOllama(form, true, prepared, call);
    match prepared
    case EncodedNothing => ErrorMessageOfFormatError(IMAGE_FAILED);
    case PrepareRaised(e) =>
      assert r.markdown == FailureBanner(e);
      if TimeoutHandler in e.caughtBy {
        ErrorMessageOfFormatError(TIMED_OUT);
      } else if RequestExceptionHandler in e.caughtBy {
        ErrorMessageOfFormatError("API request failed: " + e.text);
      } else {
        ErrorMessageOfFormatError("Error: " + e.text);
      }
    case Encoded =>
      var e := call.error;
      if TimeoutHandler in e.caughtBy {
        ErrorMessageOfFormatError(TIMED_OUT);
      } else if RequestExceptionHandler in e.caughtBy {
        ErrorMessageOfFormatError("API request failed: " + e.text);
      } else {
        ErrorMessageOfFormatError("Error: " + e.text);
      }
  }

  // ---------------------------------------------------------------------
  // save_analysis: the table part of the export
  // ---------------------------------------------------------------------

  const NOTHING_TO_SAVE: string := "No analysis data to save."

  /** What the JSON export records of the table: its headers and its data rows. */
  datatype Export = NothingToSave(message: string) | Exported(tableHeaders: seq<string>, rows: seq<seq<string>>)

  function ExportTable(data: Option<AnalysisData>): (r: Export)
    ensures data.None? <==> r == NothingToSave(NOTHING_TO_SAVE)
  {
    match data
    case None => NothingToSave(NOTHING_TO_SAVE)
    case Some(d) => Exported(d.headers, DataRows(d.rowsList))
  }

  /**
   * Exporting the data of a successful analysis records the table's first
   * row as headers and exactly the remaining rows as data.
   */
  lemma ExportAfterAnalysis(form: Form, call: CallOutcome)
    requires form.image.Some? && DetailsGiven(form) && call.Responded?
    ensures var r := AskOllama(form, true, Encoded, call);
      var rows := r.data.value.rowsList;
      && ExportTable(r.data).Exported?
      && (|rows| > 0 ==> [ExportTable(r.data).tableHeaders] + ExportTable(r.data).rows == rows)
      && (|rows| == 0 ==> ExportTable(r.data) == Exported([], []))
  {
    var rows := AskOllama(form, true, Encoded, call).data.value.rowsList;
    HeaderDataSplit(rows);
  }

  // ---------------------------------------------------------------------
  // save_report
  // ---------------------------------------------------------------------

  const FIELDS_MISSING: string := "Please fill all required fields!"
  const THANKS_HTML: string := "<span style='color: green;'>Thank You! We appreciate your response!</span>"
  const SAVE_FAILED: string := "\U{26A0}\U{FE0F} Oops! Failed to save report: "
  const NA: string := "NA"

  /** The string-valued entries of `analysis_data` that `save_report` looks up. */
  function Fields(d: AnalysisData): map<string, string> {
    map["input_name" := d.name, "input_staff_id" := d.staffId,
        "input_sector" := d.sector, "model_used" := d.modelUsed,
        "prompt" := d.prompt, "text" := d.text]
  }

  /** `data[key] if data and key in data else "NA"`. */
  function FieldOrNA(data: Option<map<string, string>>, key: string): string {
    if data.Some? && key in data.value then data.value[key] else NA
  }

  /** The feedback record written to disk (timestamp left out). */
  datatype Report = Report(
    name: string,
    staffId: string,
    sector: string,
    modelUsed: string,
    email: string,
    description: string,
    rating: int,
    systemVersion: string)

  /** `save_report`'s three return values, plus the record it wrote, if any. */
  datatype ReportResult = ReportResult(status: string, email: Option<string>, issue: Option<string>, saved: Option<Report>)

  /** `all([description, rating])`: a non-empty description and a non-zero rating. */
  predicate ReportComplete(description: Option<string>, rating: Option<int>) {
    Truthy(description) && rating.Some? && rating.value != 0
  }

  /**
   * `save_report(analysis_data, email, description, rating)`; `writeError`
   * is the text of the exception the file write raised, if it raised.
   */
  function SaveReport(data: Option<map<string, string>>, email: Option<string>,
                      description: Option<string>, rating: Option<int>,
                      writeError: Option<string>): (r: ReportResult)
    ensures r.saved.Some? <==> ReportComplete(description, rating) && writeError.None?
    ensures !ReportComplete(description, rating) ==>
              r == ReportResult(FormatError(FIELDS_MISSING), Some(""), Some(""), None)
    ensures ReportComplete(description, rating) && writeError.Some? ==>
              r.email.None? && r.issue.None? && ErrorMessage(r.status) == Some(SAVE_FAILED + writeError.value)
    ensures r.saved.Some? ==>
              && r.status == THANKS_HTML
              && r.saved.value.description == Strip(description.value)
              && r.saved.value.rating == rating.value
              && r.saved.value.email == (if Truthy(email) then email.value else NA)
              && r.saved.value.systemVersion == SYSTEM_VERSION
  {
    if !ReportComplete(description, rating) then
      ReportResult(FormatError(FIELDS_MISSING), Some(""), Some(""), None)
    else
      var report := Report(
        FieldOrNA(data, "input_name"),
        FieldOrNA(data, "input_staff_id"),
        FieldOrNA(data, "input_sector"),
        FieldOrNA(data, "model_used"),
        if Truthy(email) then email.value else NA,
        Strip(description.value),
        rating.value,
        SYSTEM_VERSION);
      match writeError
      case None => ReportResult(THANKS_HTML, Some(""), Some(""), Some(report))
      case Some(msg) =>
        ErrorMessageOfFormatError(SAVE_FAILED + msg);
        ReportResult(FormatError(SAVE_FAILED + msg), None, None, None)
  }

  /** Without analysis data every analysis field of the report is "NA". */
  lemma ReportWithoutAnalysis(email: Option<string>, description: Option<string>, rating: Option<int>)
    requires ReportComplete(description, rating)
    ensures var rep := SaveReport(None, email, description, rating, None).saved.value;
      rep.name == NA && rep.staffId == NA && rep.sector == NA && rep.modelUsed == NA
  {
  }

  /**
   * After a successful analysis the report carries the submitter's name,
   * staff id and sector and the model that was used.
   */
  lemma ReportAfterAnalysis(form: Form, call: CallOutcome,
                            email: Option<string>, description: Option<string>, rating: Option<int>)
    requires form.image.Some? && DetailsGiven(form) && call.Responded?
    requires ReportComplete(description, rating)
    ensures var d := AskOllama(form, true, Encoded, call).data.value;
      var rep := SaveReport(Some(Fields(d)), email, description, rating, None).saved.value;
      && rep.name == form.name.value
      && rep.staffId == form.staffId.value
      && rep.sector == form.sector.value
      && rep.modelUsed == MODEL_USED
  {
  }

  /** The stored description has no surrounding whitespace and is what the user typed, trimmed. */
  lemma ReportDescriptionTrimmed(data: Option<map<string, string>>, email: Option<string>,
                                 description: Option<string>, rating: Option<int>)
    requires ReportComplete(description, rating)
    ensures var rep := SaveReport(data, email, description, rating, None).saved.value;
      Stripped(rep.description) && Strip(rep.description) == rep.description
  {
    StripIdempotent(description.value);
  }
}

=== FILE: text.dfy ===
/**
 * The few Python string primitives the parsers rely on: `str.strip()`,
 * `str.split(sep)` for a one-character separator, and `sep.join(parts)`.
 * Whitespace is the fixed ASCII set; Unicode whitespace is not modelled.
 */
module Text {

  /** The characters `strip()` removes in this model. */
  predicate IsSpace(c: char) {
    c == ' ' || c == '\t' || c == '\n' || c == '\r' || c == '\U{B}' || c == '\U{C}'
  }

  predicate AllSpace(s: string) {
    forall i :: 0 <= i < |s| ==> IsSpace(s[i])
  }

  /** A string with no whitespace at either end; what `strip()` returns. */
  predicate Stripped(s: string) {
    |s| == 0 || (!IsSpace(s[0]) && !IsSpace(s[|s| - 1]))
  }

  /** Index of the first non-whitespace character of `s` at or after `i`, or `|s|`. */
  function SpanStart(s: string, i: nat): (k: nat)
    requires i <= |s|
    ensures i <= k <= |s|
    ensures forall m :: i <= m < k ==> IsSpace(s[m])
    ensures k < |s| ==> !IsSpace(s[k])
    decreases |s| - i
  {
    if i < |s| && IsSpace(s[i]) then SpanStart(s, i + 1) else i
  }

  /** One past the last non-whitespace character of `s[lo..j]`, or `lo`. */
  function SpanEnd(s: string, lo: nat, j: nat): (k: nat)
    requires lo <= j <= |s|
    ensures lo <= k <= j
    ensures forall m :: k <= m < j ==> IsSpace(s[m])
    ensures k > lo ==> !IsSpace(s[k - 1])
    decreases j
  {
    if j > lo && IsSpace(s[j - 1]) then SpanEnd(s, lo, j - 1) else j
  }

  /** `s.strip()`: `s` without its leading and trailing whitespace. */
  function Strip(s: string): (r: string)
    ensures Stripped(r)
    ensures |r| <= |s|
  {
    var i := SpanStart(s, 0);
    s[i..SpanEnd(s, i, |s|)]
  }

  /** `cell` is `piece` with some whitespace cut from each end. */
  ghost predicate TrimmedOf(cell: string, piece: string) {
    exists lead, trail :: AllSpace(lead) && AllSpace(trail) && piece == lead + cell + trail
  }

  /** `Strip(s)` is `s` with a run of whitespace cut from each end. */
  lemma StripCutsSpace(s: string) returns (lead: string, trail: string)
    ensures s == lead + Strip(s) + trail
    ensures AllSpace(lead) && AllSpace(trail)
  {
    var i := SpanStart(s, 0);
    var j := SpanEnd(s, i, |s|);
    lead, trail := s[..i], s[j..];
    assert s == s[..i] + s[i..j] + s[j..];
  }

  /**
   * `Strip` is determined by that description: whenever `s` is whitespace,
   * then a string with no whitespace at either end, then whitespace, the
   * middle part is `Strip(s)`.
   */
  lemma StripUnique(lead: string, mid: string, trail: string)
    requires AllSpace(lead) && AllSpace(trail) && Stripped(mid)
    ensures Strip(lead + mid + trail) == mid
  {
    var s := lead + mid + trail;
    var i := SpanStart(s, 0);
    if |mid| == 0 {
      assert s == lead + trail;
      assert i == |s|;
    } else {
      assert s[|lead|] == mid[0];
      assert i == |lead|;
      assert s[|lead| + |mid| - 1] == mid[|mid| - 1];
      assert SpanEnd(s, i, |s|) == |lead| + |mid|;
      assert s[i..|lead| + |mid|] == mid;
    }
  }

  /** Stripping twice is stripping once. */
  lemma StripIdempotent(s: string)
    ensures Strip(Strip(s)) == Strip(s)
  {
    StripUnique("", Strip(s), "");
    assert "" + Strip(s) + "" == Strip(s);
  }

  /** Number of occurrences of `c` in `s`. */
  function Count(s: string, c: char): nat {
    if |s| == 0 then 0 else (if s[0] == c then 1 else 0) + Count(s[1..], c)
  }

  /**
   * `s.split(sep)`: the maximal runs between occurrences of `sep`. There is
   * always at least one piece, and no piece contains `sep`.
   */
  function Split(s: string, sep: char): (parts: seq<string>)
    ensures |parts| >= 1
    ensures forall k :: 0 <= k < |parts| ==> sep !in parts[k]
  {
    if |s| == 0 then [""]
    else
      var rest := Split(s[1..], sep);
      if s[0] == sep then [""] + rest
      else [[s[0]] + rest[0]] + rest[1..]
  }

  /** `sep.join(parts)`. */
  function Join(parts: seq<string>, sep: string): string {
    if |parts| == 0 then ""
    else if |parts| == 1 then parts[0]
    else parts[0] + sep + Join(parts[1..], sep)
  }

  /** Splitting yields one more piece than there are separators. */
  lemma {:induction false} SplitCount(s: string, sep: char)
    ensures |Split(s, sep)| == Count(s, sep) + 1
  {
    if |s| > 0 {
      SplitCount(s[1..], sep);
    }
  }

  /** Joining the pieces with the separator gives back the string. */
  lemma {:induction false} JoinSplit(s: string, sep: char)
    ensures Join(Split(s, sep), [sep]) == s
  {
    if |s| > 0 {
      var rest := Split(s[1..], sep);
      JoinSplit(s[1..], sep);
      if s[0] == sep {
        assert Split(s, sep) == [""] + rest;
        assert ([""] + rest)[1..] == rest;
      } else {
        var parts := Split(s, sep);
        assert parts[0] == [s[0]] + rest[0];
        assert parts[1..] == rest[1..];
        if |rest| == 1 {
          assert s == [s[0]] + s[1..];
        } else {
          assert Join(rest, [sep]) == rest[0] + [sep] + Join(rest[1..], [sep]);
          assert s == [s[0]] + s[1..];
        }
      }
    }
  }

  /** Splitting a join of separator-free pieces gives back the pieces. */
  lemma {:induction false} SplitJoin(parts: seq<string>, sep: char)
    requires |parts| >= 1
    requires forall k :: 0 <= k < |parts| ==> sep !in parts[k]
    ensures Split(Join(parts, [sep]), sep) == parts
    decreases |parts|, |parts[0]|
  {
    var p := parts[0];
    if |p| > 0 {
      var parts' := [p[1..]] + parts[1..];
      assert parts'[1..] == parts[1..];
      SplitJoin(parts', sep);
      if |parts| == 1 {
        assert Join(parts, [sep]) == p;
      } else {
        assert Join(parts, [sep]) == [p[0]] + Join(parts', [sep]);
      }
      assert Join(parts, [sep])[1..] == Join(parts', [sep]);
      assert p == [p[0]] + p[1..];
    } else if |parts| > 1 {
      SplitJoin(parts[1..], sep);
      assert Join(parts, [sep])[1..] == Join(parts[1..], [sep]);
    }
  }
}

=== FILE: video_pipeline.dfy ===
/**
 * The video-file fall detector as a state machine. The playback loop
 * counts frames and skips every odd one; for the others it offers the
 * frame to a one-frame queue when that queue is empty, then polls a
 * one-result queue without blocking and keeps its previous result when
 * nothing new has arrived. The worker takes a frame, calls the inference
 * service, writes the outcome's text to `last_result`, pushes the same
 * text into the result queue (a blocking put) and sleeps.
 *
 * Each event is one atomic step of one of the two threads; a blocking call
 * that would wait is an event that is not enabled. Scheduling, the lock,
 * the letterboxing arithmetic and wall-clock time are not modelled.
 */
module VideoPipeline {
  import opened Base
  import opened Outcomes
  import BQ = BoundedQueue

  /** A frame of the video, known by its 1-based position (the value of `frame_count` when it was read). */
  datatype Frame = Frame(index: nat)

  /** `frame_skip`: only frames whose count is a multiple of it are processed. */
  const FRAME_SKIP: nat := 2

  /** Both queues are `Queue(maxsize=1)`. */
  const QUEUE_SIZE: nat := 1

  datatype Phase =
    | Waiting                    // blocked in frame_queue.get()
    | Calling(frame: Frame)      // encoding the frame and waiting for the reply
    | Publishing(result: string) // last_result written; blocked in result_queue.put()
    | Sleeping                   // in time.sleep(1)

  datatype State = State(
    frameQueue: BQ.Queue<Frame>,
    resultQueue: BQ.Queue<string>,
    lastResult: string,
    current: Option<string>,  // the playback loop's current_result
    frameCount: nat,
    phase: Phase,
    accepted: seq<Frame>,     // every frame the frame queue took, in order
    taken: seq<Frame>,        // every frame the worker took, in order
    writes: seq<string>,      // every value written to last_result, in order
    shown: seq<string>)       // every result the playback loop received, in order

  datatype Event =
    | Read                          // one iteration of the playback loop, after a successful cap.read()
    | Take                          // the worker's frame_queue.get() returns
    | Finish(outcome: CallOutcome)  // the worker's request is over and last_result is written
    | Publish                       // the worker's result_queue.put(last_result) returns
    | Wake                          // the worker's sleep is over

  function Init(): State {
    State(BQ.New(QUEUE_SIZE), BQ.New(QUEUE_SIZE), SENTINEL, None, 0, Waiting, [], [], [], [])
  }

  /** The text the playback loop overlays, or `None` when it draws nothing. */
  function Overlay(s: State): Option<string> {
    s.current
  }

  /** One event; `None` when the event cannot happen in `s`. */
  function Step(s: State, e: Event): (r: Option<State>)
    ensures e.Read? ==> r.Some? && r.value.frameCount == s.frameCount + 1
    ensures e.Take? ==> (r.Some? <==> s.phase.Waiting? && !BQ.Empty(s.frameQueue))
    ensures e.Finish? ==> (r.Some? <==> s.phase.Calling?)
    ensures e.Publish? ==> (r.Some? <==> s.phase.Publishing? && !BQ.Full(s.resultQueue))
    ensures r.Some? && !e.Finish? ==> r.value.lastResult == s.lastResult && r.value.writes == s.writes
    ensures r.Some? && e.Finish? ==> r.value.writes == s.writes + [r.value.lastResult]
    ensures r.Some? && e.Finish? ==> r.value.lastResult == WorkerMessage(e.outcome)
    ensures r.Some? && e.Publish? ==> r.value.resultQueue.items == s.resultQueue.items + [s.lastResult]
  {
    match e
    case Read =>
      var n := s.frameCount + 1;
      if n % FRAME_SKIP != 0 then Some(s.(frameCount := n))
      else
        var f := Frame(n);
        var accepted := if BQ.Empty(s.frameQueue) then s.accepted + [f] else s.accepted;
        var s1 := s.(frameCount := n, frameQueue := BQ.OfferIfEmpty(s.frameQueue, f), accepted := accepted);
        (match BQ.Get(s.resultQueue)
         case None => Some(s1)
         case Some((text, q)) => Some(s1.(resultQueue := q, current := Some(text), shown := s.shown + [text])))
    case Take =>
      if !s.phase.Waiting? then None
      else
        (match BQ.Get(s.frameQueue)
         case None => None
         case Some((f, q)) => Some(s.(frameQueue := q, phase := Calling(f), taken := s.taken + [f])))
    case Finish(o) =>
      if !s.phase.Calling? then None
      else
        var text := WorkerMessage(o);
        Some(s.(lastResult := text, phase := Publishing(text), writes := s.writes + [text]))
    case Publish =>
      if !s.phase.Publishing? then None
      else
        (match BQ.Put(s.resultQueue, s.lastResult)
         case None => None
         case Some(q) => Some(s.(resultQueue := q, phase := Sleeping)))
    case Wake =>
      if s.phase.Sleeping? then Some(s.(phase := Waiting)) else None
  }

  /** The state after a trace of events, or `None` if some event in it cannot happen. */
  function Run(s: State, trace: seq<Event>): Option<State>
    decreases |trace|
  {
    if |trace| == 0 then Some(s)
    else
      match Step(s, trace[0])
      case None => None
      case Some(s') => Run(s', trace[1..])
  }

  /** The result the worker holds but has not yet pushed. */
  function Pending(p: Phase): seq<string> {
    if p.Publishing? then [p.result] else []
  }

  /**
   * What holds in every reachable state:
   *  - each queue holds at most one item;
   *  - every accepted frame is taken or still queued, in order; every
   *    accepted frame has an even position not beyond the frame count, and
   *    positions increase;
   *  - the worker holds a frame exactly when it has taken one more than it
   *    has reported on;
   *  - every written result has been received by the playback loop, sits
   *    in the result queue, or is about to be pushed, in order, so none is
   *    lost; the pending one is the current `last_result`;
   *  - `last_result` is the latest write (or the sentinel), and the
   *    playback loop's current result is the latest one it received.
   */
  predicate Inv(s: State) {
    QueuesBounded(s) && FramesAccounted(s) && WorkerAccounted(s) && ResultsAccounted(s)
  }

  predicate QueuesBounded(s: State) {
    && s.frameQueue.maxsize == QUEUE_SIZE && |s.frameQueue.items| <= 1
    && s.resultQueue.maxsize == QUEUE_SIZE && |s.resultQueue.items| <= 1
  }

  predicate FramesAccounted(s: State) {
    && s.taken + s.frameQueue.items == s.accepted
    && FramePositions(s.accepted, s.frameCount)
  }

  predicate WorkerAccounted(s: State) {
    && |s.taken| == |s.writes| + (if s.phase.Calling? then 1 else 0)
    && (s.phase.Calling? ==> s.phase.frame == s.taken[|s.taken| - 1])
  }

  predicate ResultsAccounted(s: State) {
    && s.writes == s.shown + s.resultQueue.items + Pending(s.phase)
    && (s.phase.Publishing? ==> s.phase.result == s.lastResult)
    && s.lastResult == (if |s.writes| == 0 then SENTINEL else s.writes[|s.writes| - 1])
    && s.current == (if |s.shown| == 0 then None else Some(s.shown[|s.shown| - 1]))
  }

  lemma InitInv()
    ensures Inv(Init())
  {
  }

  lemma ReadPreservesInv(s: State)
    requires Inv(s)
    ensures Inv(Step(s, Read).value)
  {
    ReadKeepsFrames(s);
    ReadKeepsResults(s);
    ReadKeepsWorker(s);
  }

  lemma ReadKeepsWorker(s: State)
    requires QueuesBounded(s) && WorkerAccounted(s)
    ensures QueuesBounded(Step(s, Read).value) && WorkerAccounted(Step(s, Read).value)
  {
  }

  /** Frame positions that are even, increasing and at most `count`. */
  predicate FramePositions(accepted: seq<Frame>, count: nat) {
    && (forall k :: 0 <= k < |accepted| ==>
          accepted[k].index % FRAME_SKIP == 0 && 0 < accepted[k].index <= count)
    && (forall k, m :: 0 <= k < m < |accepted| ==> accepted[k].index < accepted[m].index)
  }

  /** A later count keeps the positions valid, and so does accepting the frame just counted when it is even. */
  lemma AcceptNextFrame(accepted: seq<Frame>, count: nat)
    requires FramePositions(accepted, count)
    ensures FramePositions(accepted, count + 1)
    ensures (count + 1) % FRAME_SKIP == 0 ==> FramePositions(accepted + [Frame(count + 1)], count + 1)
  {
    var n := count + 1;
    if n % FRAME_SKIP == 0 {
      var all := accepted + [Frame(n)];
      forall k | 0 <= k < |all|
        ensures all[k].index % FRAME_SKIP == 0 && 0 < all[k].index <= n
      {
        if k < |accepted| { assert all[k] == accepted[k]; }
      }
      forall k, m | 0 <= k < m < |all|
        ensures all[k].index < all[m].index
      {
        assert all[k] == accepted[k];
        if m < |accepted| { assert all[m] == accepted[m]; }
      }
    }
  }

  lemma ReadKeepsFrames(s: State)
    requires QueuesBounded(s) && FramesAccounted(s)
    ensures FramesAccounted(Step(s, Read).value)
  {
    var s' := Step(s, Read).value;
    var n := s.frameCount + 1;
    AcceptNextFrame(s.accepted, s.frameCount);
    if n % FRAME_SKIP == 0 && BQ.Empty(s.frameQueue) {
      assert s.taken == s.accepted;
      assert s'.accepted == s.accepted + [Frame(n)];
      assert s'.taken + s'.frameQueue.items == s'.accepted;
    } else {
      assert s'.accepted == s.accepted && s'.taken == s.taken && s'.frameQueue == s.frameQueue;
    }
    assert FramePositions(s'.accepted, s'.frameCount);
  }

  lemma ReadKeepsResults(s: State)
    requires QueuesBounded(s) && ResultsAccounted(s)
    ensures ResultsAccounted(Step(s, Read).value)
  {
    var s' := Step(s, Read).value;
    if (s.frameCount + 1) % FRAME_SKIP == 0 && !BQ.Empty(s.resultQueue) {
      var rq := s.resultQueue;
      assert rq.items == [rq.items[0]];
      assert s'.shown + s'.resultQueue.items == s.shown + rq.items;
    }
  }

  lemma StepPreservesInv(s: State, e: Event)
    requires Inv(s)
    ensures Step(s, e).Some? ==> Inv(Step(s, e).value)
  {
    match e
    case Read => ReadPreservesInv(s);
    case Take => TakePreservesInv(s);
    case Finish(o) => FinishPreservesInv(s, o);
    case Publish => PublishPreservesInv(s);
    case Wake =>
  }

  lemma TakePreservesInv(s: State)
    requires Inv(s)
    ensures Step(s, Take).Some? ==> Inv(Step(s, Take).value)
  {
    if Step(s, Take).Some? {
      var q := s.frameQueue;
      assert q.items == [q.items[0]];
      assert s.taken + [q.items[0]] + q.items[1..] == s.accepted;
    }
  }

  lemma FinishPreservesInv(s: State, o: CallOutcome)
    requires Inv(s)
    ensures Step(s, Finish(o)).Some? ==> Inv(Step(s, Finish(o)).value)
  {
    if Step(s, Finish(o)).Some? {
      assert s.resultQueue.items + [] == s.resultQueue.items;
    }
  }

  lemma PublishPreservesInv(s: State)
    requires Inv(s)
    ensures Step(s, Publish).Some? ==> Inv(Step(s, Publish).value)
  {
    if Step(s, Publish).Some? {
      assert s.resultQueue.items == [];
    }
  }

  /** The invariant holds after every trace that can happen. */
  lemma {:induction false} RunPreservesInv(s: State, trace: seq<Event>)
    requires Inv(s)
    ensures Run(s, trace).Some? ==> Inv(Run(s, trace).value)
    decreases |trace|
  {
    if |trace| > 0 {
      StepPreservesInv(s, trace[0]);
      if Step(s, trace[0]).Some? {
        RunPreservesInv(Step(s, trace[0]).value, trace[1..]);
      }
    }
  }

  /**
   * In every reachable state both queues hold at most one item, and every
   * frame that ever entered the frame queue is an even-numbered one.
   */
  lemma Reachable(trace: seq<Event>)
    requires Run(Init(), trace).Some?
    ensures Inv(Run(Init(), trace).value)
    ensures var s := Run(Init(), trace).value;
      && |s.frameQueue.items| <= 1 && |s.resultQueue.items| <= 1
      && forall k :: 0 <= k < |s.accepted| ==> s.accepted[k].index % FRAME_SKIP == 0
  {
    InitInv();
    RunPreservesInv(Init(), trace);
  }

  /** An odd-numbered frame is skipped entirely: only the counter moves. */
  lemma OddFrameSkipped(s: State)
    requires (s.frameCount + 1) % FRAME_SKIP != 0
    ensures Step(s, Read) == Some(s.(frameCount := s.frameCount + 1))
  {
  }

  /** An even-numbered frame goes into an empty frame queue. */
  lemma EvenFrameOffered(s: State)
    requires (s.frameCount + 1) % FRAME_SKIP == 0 && BQ.Empty(s.frameQueue)
    ensures Step(s, Read).value.frameQueue.items == [Frame(s.frameCount + 1)]
  {
  }

  /** An even-numbered frame read while another waits is dropped; the waiting one stays. */
  lemma FrameDroppedWhenFull(s: State, queued: Frame)
    requires s.frameQueue.items == [queued]
    ensures Step(s, Read).value.frameQueue.items == [queued]
    ensures Step(s, Read).value.accepted == s.accepted
  {
  }

  /** The worker's take returns the one queued frame and leaves the queue empty. */
  lemma TakeEmptiesSlot(s: State, f: Frame)
    requires s.phase.Waiting? && s.frameQueue.items == [f]
    ensures Step(s, Take).Some?
    ensures Step(s, Take).value.phase == Calling(f)
    ensures BQ.Empty(Step(s, Take).value.frameQueue)
  {
  }

  /** With no new result queued, the playback loop keeps the result it had. */
  lemma RendererKeepsPrevious(s: State)
    requires BQ.Empty(s.resultQueue)
    ensures Overlay(Step(s, Read).value) == Overlay(s)
  {
  }

  /** On a processed frame, a queued result replaces the current one and leaves the result queue. */
  lemma RendererTakesNewResult(s: State, text: string)
    requires (s.frameCount + 1) % FRAME_SKIP == 0 && s.resultQueue.items == [text]
    ensures Overlay(Step(s, Read).value) == Some(text)
    ensures BQ.Empty(Step(s, Read).value.resultQueue)
  {
  }

  /**
   * One worker iteration publishes its result twice: `last_result` and
   * the result queue both receive the outcome's text, whatever the outcome.
   */
  lemma ResultPublishedTwice(s: State, o: CallOutcome)
    requires Inv(s) && s.phase.Calling? && BQ.Empty(s.resultQueue)
    ensures Run(s, [Finish(o), Publish]).Some?
    ensures var s' := Run(s, [Finish(o), Publish]).value;
      && s'.lastResult == WorkerMessage(o)
      && s'.resultQueue.items == [WorkerMessage(o)]
      && s'.writes == s.writes + [WorkerMessage(o)]
      && s'.phase == Sleeping
  {
    var s1 := Step(s, Finish(o)).value;
    var s2 := Step(s1, Publish).value;
    assert [Finish(o), Publish][1..] == [Publish] && [Publish][1..] == [];
    assert Run(s1, [Publish]) == Some(s2);
  }

  /** The worker cannot push a result while the previous one is still unread: it waits. */
  lemma PublishWaitsForReader(s: State)
    requires Inv(s) && !BQ.Empty(s.resultQueue)
    ensures Step(s, Publish).None?
  {
  }

  /** Number of `Finish` events in a trace. */
  function Finishes(trace: seq<Event>): nat {
    if |trace| == 0 then 0 else (if trace[0].Finish? then 1 else 0) + Finishes(trace[1..])
  }

  /** `last_result` is written exactly once per finished request, and by nothing else. */
  lemma {:induction false} OneWritePerRequest(s: State, trace: seq<Event>)
    ensures Run(s, trace).Some? ==> |Run(s, trace).value.writes| == |s.writes| + Finishes(trace)
    decreases |trace|
  {
    if |trace| > 0 && Step(s, trace[0]).Some? {
      OneWritePerRequest(Step(s, trace[0]).value, trace[1..]);
    }
  }

  /**
   * Nothing is drawn until a first result arrives; what is drawn is always
   * a result the worker wrote, and the results the playback loop receives
   * are the worker's results in order, with none skipped.
   */
  lemma OverlayFollowsWrites(trace: seq<Event>)
    requires Run(Init(), trace).Some?
    ensures var s := Run(Init(), trace).value;
      && |s.shown| <= |s.writes|
      && s.shown == s.writes[..|s.shown|]
      && (|s.shown| == 0 <==> Overlay(s).None?)
      && (Overlay(s).Some? ==> Overlay(s).value in s.writes)
  {
    Reachable(trace);
    var s := Run(Init(), trace).value;
    assert s.writes == s.shown + (s.resultQueue.items + Pending(s.phase));
  }
}
